=== FILE: README.md ===
# books-search core in Dafny

A model of the computational core of the books-search service: a FastAPI application that
serves a scraped book catalogue and reports analytics about its own traffic. Two parts are
modelled.

- The analytics aggregator (`api/presentation/routes/analytics.py`). Its three handlers,
  GET /metrics, GET /ml-predictions and GET /performance, reduce the logger's lists of
  request, error and prediction records to statistics. The statistics are:
  - histograms by endpoint, method and error type;
  - the mean response time and the error rate;
  - the five busiest endpoints and the ten newest entries;
  - a min, median, p95 and p99 distribution;
  - per-endpoint timings;
  - system health;
  - per-book prediction averages.

  A `KeyError` raised inside a handler's `try` block becomes an HTTP 500 whose detail ends
  in the missing key. The model returns it as `Failure(HttpError(500, ...))`.
- The book-catalogue use cases:
  - case-insensitive search by title and/or category;
  - inclusive price filtering;
  - top-rated books (a stable sort, highest rating first, then a limit);
  - lookup by id;
  - distinct categories, in first-seen order or sorted;
  - per-category counts;
  - overview averages;
  - the health check;
  - three helpers of the scraper.

  The repository keeps near-duplicate variants of several use cases: an object variant and
  a dict-record variant, or an api variant and a book-api variant. Each variant is modelled
  with its own contract. A lemma relates each pair where the variants agree, and says where
  they differ.

Layout, one module per file:

- `wrappers.dfy` (`Wrappers`): `Option`, `Result`, `HttpError`.
- `seqs.dfy` (`Seqs`): filter, subsequence, Python slicing, first-seen de-duplication,
  sum/min/max/mean.
- `sorting.dfy` (`Sorting`): one stable insertion sort over a total preorder. This is the
  model of Python's `sorted`, which is stable also with `reverse=True`.
- `grouping.dfy` (`Grouping`): Python dicts in insertion order, modelled as association
  sequences:
  - `Counter` becomes `Tally`;
  - `defaultdict(list)` becomes `GroupBy`;
  - `Counter.most_common` becomes `MostCommon`.
- `text.dfy` (`Text`): `str.lower`, substring test, string order, `str.replace`, decimal
  rendering.
- `catalogue.dfy` (`Catalogue`): the `Book` record.
- `book_*.dfy`, `health.dfy`, `scraper.dfy`: the use cases.
- `analytics_*.dfy`: the log records and the three handlers.

The logger accessors (`logger.get_api_calls()`, `get_errors()`, `get_ml_predictions()`) and
the repository's `get_books_list()` / `get_books_dataframe()` are parameters of the model.

## Model

| member | source | states |
|---|---|---|
| AnalyticsMetrics.GetApiMetrics | api/presentation/routes/analytics.py:17-76 | With no calls the response keeps every default (0 requests, empty histograms and lists, error rate 0), whatever errors are logged. A call without a path fails with the 500 for `'path'`. When every call carries a path, it fails, with the `'duration_ms'` 500, exactly when one of the ten newest calls lacks a duration. It succeeds when every call carries both. `total_requests` is the number of calls, and `average_response_time` is the mean of the timed calls' durations. |
| AnalyticsMetrics.Summarize | api/presentation/routes/analytics.py:33-71 | For a non-empty log whose calls all carry a path, it fails with the `'duration_ms'` 500 exactly when one of the ten newest calls lacks a duration. Total, error rate and the average response time (`AverageResponseTime`) are reported, and `recent_activity` is built from the ten newest calls. |
| AnalyticsMetrics.MetricsCounts | api/presentation/routes/analytics.py:33-42 | The endpoint and method histograms list each distinct path and method once, in first-seen order. Each count is the number of calls with that key. Each histogram's counts add up to the number of calls. |
| AnalyticsMetrics.DurationsOf | api/presentation/routes/analytics.py:45 | Position by position, the durations of the calls that carry one (the filter of timed calls), so order and repeats are kept. Every duration comes from a call, and every call's duration is listed. |
| AnalyticsMetrics.AverageResponseTime | api/presentation/routes/analytics.py:45-47 | 0 when no call is timed. Otherwise the average times the number of timed calls is their total duration (`sum/len`), and it lies between the smallest and the largest duration. |
| AnalyticsMetrics.AverageResponseTimeBounds | api/presentation/routes/analytics.py:45-47 | The reported `average_response_time` is 0 without timed calls. Otherwise it is `sum/len` of the durations: times the number of timed calls it gives their total, and it lies between the fastest and the slowest timed call. |
| AnalyticsMetrics.ErrorRate | api/presentation/routes/analytics.py:50-52 | `rate * (calls + errors) == 100 * errors`, so rate = 100·errors/(calls+errors). It lies in [0, 100], is below 100 when there is a call, and is 0 exactly when there are no errors. |
| AnalyticsMetrics.ErrorRateReported | api/presentation/routes/analytics.py:50-52 | The reported `error_rate` is that share for the logged calls and errors. |
| AnalyticsMetrics.TopEndpointsRanked | api/presentation/routes/analytics.py:55-58 | `top_endpoints` has min(5, #endpoints) entries taken from the endpoint histogram, none more often than it occurs there, with counts non-increasing. No endpoint left out has more calls than a listed one. |
| AnalyticsMetrics.RecentActivityNewestFirst | api/presentation/routes/analytics.py:61-71 | `recent_activity` has min(10, #calls) entries, timestamps non-increasing. |
| AnalyticsMetrics.RecentActivityFromLog | api/presentation/routes/analytics.py:61-71 | Entry i carries the timestamp (default ""), method, path, status and duration of the i-th newest logged call. |
| AnalyticsMetrics.ActivityOf | api/presentation/routes/analytics.py:62-71 | One activity entry per call, field by field, with the missing timestamp read as "". |
| AnalyticsRecords.Recent | api/presentation/routes/analytics.py:61 | `sorted(key=timestamp, reverse=True)[:n]`: min(n, len) records, a sub-multiset of the input, newest first. Every record left out is no newer than every record kept. |
| AnalyticsRecords.NewerByOrder | api/presentation/routes/analytics.py:61 | Newest-first by a string timestamp is a total preorder, so the sort is well defined. |
| Grouping.MostCommon | api/presentation/routes/analytics.py:57 | `most_common(n)`: min(n, len) entries, a sub-multiset of the histogram, by non-increasing count. No entry left out outranks a listed one. |
| Grouping.MostCommonStable | api/presentation/routes/analytics.py:57 | The full ranking keeps entries with equal counts in first-seen (insertion) order. |
| Grouping.MostCommonPrefix | api/presentation/routes/analytics.py:57 | `most_common(n)` is the first n entries of the full ranking. Of entries with equal counts, the earliest-seen ones survive the cut, in first-seen order. |
| Grouping.TallySpec | api/presentation/routes/analytics.py:37-42 | `Counter`: the distinct keys in first-seen order, each with its number of occurrences (at least 1), and the counts add up to the number of keys counted. |
| Grouping.GroupBySpec | api/presentation/routes/analytics.py:167-170 | `defaultdict(list)` filled by appends: the distinct keys in first-seen order; each group is the values logged under its key, in order, and it is non-empty. |
| Grouping.GroupByTotal | api/presentation/routes/analytics.py:104-107 | Every appended value lands in exactly one group: the group sizes add up to the number of pairs. |
| Grouping.GroupSizes | api/presentation/routes/analytics.py:104-107 | Each group's size is the number of pairs with its key. |
| AnalyticsPerformance.GetPerformanceMetrics | api/presentation/routes/analytics.py:141-198 | The handler never fails. With no calls every section stays empty, and only then. Otherwise the four sections are: the distribution of the timed calls' durations, the per-path statistics of the calls carrying a path and a duration, the error-type tally, and system health. The error breakdown lists each type once in first-seen order with its number of errors; the counts add up to the number of errors. Total = calls + errors. |
| AnalyticsPerformance.SortedTimes | api/presentation/routes/analytics.py:157 | `sorted(response_times)`: a permutation of the durations in ascending order. |
| AnalyticsPerformance.ResponseTimeDistribution | api/presentation/routes/analytics.py:155-164 | Absent exactly when no call is timed. min and max are the extremes. median is `sorted[n//2]`. p95 is `sorted[int(n·0.95)]` when n > 20 and max otherwise; p99 is `sorted[int(n·0.99)]` when n > 100 and max otherwise. All are durations that occur, with min ≤ median ≤ p95 ≤ p99 ≤ max. |
| AnalyticsPerformance.DistributionRanks | api/presentation/routes/analytics.py:157-163 | The values have their statistical meaning. More than half the durations are ≤ the median, and at least half are ≥ it. More than 95% are ≤ p95 and, for n > 20, at least 5% are ≥ it. More than 99% are ≤ p99 and, for n > 100, at least 1% are ≥ it. |
| AnalyticsPerformance.PercentileIndex | api/presentation/routes/analytics.py:162-163 | `int(n·pct/100)` with exact arithmetic: the index is below n for n > 0 and is the floor of n·pct/100. |
| AnalyticsPerformance.IndexOrder | api/presentation/routes/analytics.py:161-163 | The median index ≤ the 95th-percentile index ≤ the 99th-percentile index. |
| AnalyticsPerformance.TimedSamples | api/presentation/routes/analytics.py:168-170 | Position by position, the (path, duration) of each call carrying both (the filter of such calls), in log order. |
| AnalyticsPerformance.EndpointPerformance | api/presentation/routes/analytics.py:167-180 | One entry per distinct path among the timed calls, in first-seen order. `request_count` is the number of timed calls to that path (≥ 1). For the durations logged for the path: average × count = their sum, and min and max are among them and bound all of them. |
| AnalyticsPerformance.StatsPerGroup | api/presentation/routes/analytics.py:172-180 | Per group: count = group size, average × count = the group's sum, min and max occur in the group and bound every element. |
| AnalyticsPerformance.StatsOf | api/presentation/routes/analytics.py:174-177 | count = number of durations (≥ 1), average × count = their sum, and min and max are durations that occur and bound all of them. |
| AnalyticsPerformance.StatsByPath | api/presentation/routes/analytics.py:172-180 | Each path's statistics describe the durations logged for that path: average × count = their sum, and min and max occur among them and bound all of them. |
| AnalyticsPerformance.EndpointCountsTotal | api/presentation/routes/analytics.py:167-180 | The request counts add up to the number of calls carrying both a path and a duration. |
| AnalyticsPerformance.EndpointBounds | api/presentation/routes/analytics.py:167-180 | An endpoint's min and max bound every duration logged for that path, and each is a logged (path, duration) sample. |
| AnalyticsPerformance.ErrorTypes | api/presentation/routes/analytics.py:183 | One type per error, in order; a missing `error_type` reads as "Unknown". |
| AnalyticsPerformance.Health | api/presentation/routes/analytics.py:187-193 | total = calls + errors, error count = errors, uptime = success rate ∈ (0, 100], success rate is 100 exactly when there are no errors, and uptime + error rate = 100. |
| AnalyticsPerformance.UptimeComplementsErrorRate | api/presentation/routes/analytics.py:189 | For the same log, `/performance`'s uptime and `/metrics`' error rate add up to 100. |
| AnalyticsPredictions.GetMlPredictions | api/presentation/routes/analytics.py:84-133 | The empty log gives the defaults. It fails with the `'confidence'` 500 exactly when a prediction naming a book lacks a confidence. Otherwise it fails with the `'book_id'` 500 exactly when one of the ten newest predictions names no book. On success: total = number of predictions; per-book statistics as `PredictionsByBook`; `recent_predictions` built entry by entry from the ten newest predictions. The average confidence is 0 without confidences; otherwise average × count = their sum. |
| AnalyticsPredictions.Assemble | api/presentation/routes/analytics.py:95-128 | Once confidences are known, it fails with the `'book_id'` 500 exactly when one of the ten newest predictions names no book. On success the total and per-book statistics are as above, and `recent_predictions` is built entry by entry from the ten newest predictions, newest first. |
| AnalyticsPredictions.ConfidencesOf | api/presentation/routes/analytics.py:99 | Position by position, the confidences of the predictions that carry one (order and repeats kept). Every one comes from a prediction, and every prediction's confidence is listed. |
| AnalyticsPredictions.KeyedByBook | api/presentation/routes/analytics.py:105-107 | Position by position, (book_id, prediction) for the predictions naming a book (the filter of such predictions), in log order. |
| AnalyticsPredictions.BookGroups | api/presentation/routes/analytics.py:104-107 | The groups list each named book once in first-seen order; a group's size is the number of predictions for that book (≥ 1), and all carry a confidence. |
| AnalyticsPredictions.PredictionsByBook | api/presentation/routes/analytics.py:109-116 | One entry per named book in first-seen order, with `count` = number of its predictions (≥ 1) and the averages of its group. |
| AnalyticsPredictions.BookStatsOf | api/presentation/routes/analytics.py:110-114 | count = group size. Each average × count = the group's sum of predictions or confidences, and each average lies between the group's minimum and maximum. |
| AnalyticsPredictions.BookCountsTotal | api/presentation/routes/analytics.py:104-116 | The per-book counts add up to the number of predictions that name a book. |
| AnalyticsPredictions.GroupExtremes | api/presentation/routes/analytics.py:104-116 | A book's smallest and largest prediction and confidence are each values logged for that book. |
| AnalyticsPredictions.BookAveragesBounded | api/presentation/routes/analytics.py:110-114 | A book's average prediction and average confidence lie between values logged for that book. |
| AnalyticsPredictions.RecentOf | api/presentation/routes/analytics.py:120-128 | One recent entry per prediction, field by field, with the missing timestamp read as "". |
| BookSearch.SearchByTitleOrCategory | api/domain/usecases/books/search_by_title_or_category.py:12-33 | The result is an order-preserving subsequence of the books. With neither query truthy it is the input. A kept book matches every truthy query case-insensitively, and every book matching them is kept. |
| BookSearch.SearchIsFilter | api/domain/usecases/books/search_by_title_or_category.py:16-33 | The search is exactly the filter of its query predicate. |
| BookSearch.BothNarrowsTitleOnly | api/domain/usecases/books/search_by_title_or_category.py:16-26 | The title-and-category result is a subsequence of the title-only result. |
| BookSearch.SearchIgnoresCase | api/domain/usecases/books/search_by_title_or_category.py:19-20 | Queries that lower-case alike give the same books. |
| BookSearch.SearchConjunctive | api/domain/usecases/books/get_by_title_or_category.py:3-12 | The result is an order-preserving subsequence. A book is kept exactly when it matches both lower-cased queries, an empty query matching everything. |
| BookSearch.SearchConjunctiveDefaults | api/domain/usecases/books/get_by_title_or_category.py:3-10 | With the default `""` queries every book is returned. |
| BookSearch.SearchVariantsAgree | api/domain/usecases/books/get_by_title_or_category.py:7-11 | The function variant with strings equals the class variant given the same strings; its defaults equal the class variant without queries. |
| BookPrice.GetByPrice | api/domain/usecases/books/get_by_price_books.py:12-24 | The result is an order-preserving subsequence of the books within the optional inclusive bounds. It holds every in-range book as many times as the input does, and no other book. With no bounds it is the input; with min > max it is empty. |
| BookPrice.GetByPriceRows | api/domain/usecases/books/get_by_price.py:4-16 | The dict-record loop computes the same filter. |
| BookPrice.GetByPriceRange | book-api/usecases/books/get_by_price.py:4-8 | The result is an order-preserving subsequence. It holds each book with min ≤ price ≤ max as many times as the input does, and no other book. It is empty when min > max. |
| BookPrice.DefaultRangeExcludes | book-api/usecases/books/get_by_price.py:4-7 | With the defaults 0 and 1000, no book priced outside [0, 1000] is returned. |
| BookPrice.PriceVariantsAgree | book-api/usecases/books/get_by_price.py:7 | The book-api range equals the optional-bounds filter with both bounds given. |
| BookRank.SortByRating | api/domain/usecases/books/get_top_rated_books.py:14 | The sorted list is a permutation of the books with ratings non-increasing. |
| BookRank.SortByRatingStable | api/domain/usecases/books/get_top_rated_books.py:14 | Books with equal rating keep their input order. |
| BookRank.RatingOrder | api/domain/usecases/books/get_top_rated_books.py:14 | "Rating at least" is a total preorder. |
| BookRank.GetTopRatedBooks | api/domain/usecases/books/get_top_rated_books.py:11-17 | The result is a prefix of the sorted list: of length min(limit, n) when limit > 0, and a permutation of all books when limit ≤ 0. Ratings are non-increasing, and every returned book rates at least as high as every omitted one. |
| BookRank.GetTopRatedBooksSliced | api/domain/usecases/books/get_top_rated.py:3-8 | The result is a prefix of the sorted list. limit 0 returns all books. limit > 0 returns min(limit, n). A negative limit −k drops the last k books, leaving max(n − k, 0). Returned books outrank omitted ones. |
| BookRank.TopRatedVariants | api/domain/usecases/books/get_top_rated.py:6-7 | The variants agree for limit ≥ 0; for a negative limit on a non-empty catalogue they differ. |
| BookLookup.GetBookById | api/domain/usecases/books/get_by_id_books.py:11-17 | None exactly when no book has the id. Otherwise the result has the id and is the lowest-index match. |
| BookLookup.LookupIgnoresLater | api/domain/usecases/books/get_by_id_books.py:14-16 | Books after the first match do not affect the result. |
| BookLookup.GetBookByIdRows | api/domain/usecases/books/get_by_id.py:3-9 | The dict-record loop with early return computes the same lookup. |
| BookCategories.GetAllCategories | api/domain/usecases/categories/get_all_categories.py:11-18 | The result has no duplicates, holds exactly the books' categories, and is no longer than the book list. |
| BookCategories.CategoriesFirstSeenOrder | api/domain/usecases/categories/get_all_categories.py:15-17 | Categories appear in the order of their first occurrence. |
| BookCategories.GetAllCategoriesSorted | api/domain/usecases/categories/get_all.py:4-11 | A missing column fails, and only then, with the 500 "Coluna 'category' ausente no CSV.". Otherwise the categories are exactly the non-null cells, strictly ascending (sorted, no duplicates). |
| BookCategories.ColumnSorted | api/domain/usecases/categories/get_all.py:10-11 | The sorted distinct non-null cells are exactly the non-null cells, strictly ascending. |
| BookCategories.StringOrder | api/domain/usecases/categories/get_all.py:11 | Python's string `<=` is a total preorder. |
| BookCategories.CategoryVariantsAgree | api/domain/usecases/categories/get_all.py:10-11 | Without nulls, both variants list the same categories, each once. |
| BookStats.CategoryStats | api/domain/usecases/stats/get_categories_stats.py:10-26 | One entry per distinct category in first-seen order. Each count is the number of books in it (≥ 1), and the counts add up to the number of books. |
| BookStats.CategoryCountIsBookCount | api/domain/usecases/stats/get_categories.py:7-17 | Each count equals the number of books the category filter keeps. |
| BookStats.GetOverview | api/domain/usecases/stats/get_overview_stats.py:10-29 | The empty catalogue gives (0, 0.0, 0.0). `total_books` is the number of books. The unrounded average price and rating lie between the smallest and the largest value. |
| BookStats.OverviewTotals | api/domain/usecases/stats/get_overview_stats.py:21-23 | Average times count gives back the total price and total rating. |
| Health.GetHealthStatus | api/domain/usecases/health/get_status.py:10-39 | It never fails. A successful load gives "healthy", `csv_loaded` and the book count. FileNotFoundError gives "unhealthy" with the fixed message and 0. Any other failure gives "unhealthy" with the message "Erro ao verificar dados: " followed by the error text, and 0. `csv_loaded` holds exactly when the status is "healthy". |
| Health.GetBookApiHealthStatus | book-api/usecases/health/get_status.py:3-19 | It never fails. The result is "ok" with `csv_available` and the row count on success, and "error" with the error text otherwise. `total_books` is present only on success; `error` is present only on failure. |
| Health.HealthVariantsAgree | book-api/usecases/health/get_status.py:7-19 | Both checks agree on availability and on the book count. |
| Scraper.RatingToInt | scripts/scrape_books.py:12-14 | The result lies in 0..5. It is 0 exactly for an unrecognised word; otherwise the word is the one the site uses for that count. |
| Scraper.RatingRoundTrip | scripts/scrape_books.py:13 | "One" through "Five" map to 1 through 5. |
| Scraper.RatingInjective | scripts/scrape_books.py:13-14 | Two recognised words with equal counts are the same word. |
| Scraper.ImageUrl | scripts/scrape_books.py:21 | The URL starts with the site root. |
| Scraper.ImageUrlStripsParents | scripts/scrape_books.py:21 | Any number of leading `../` segments are removed, and the rest of the path is kept. |
| Scraper.PageUrl | scripts/scrape_books.py:47-50 | Page 1 is the site root + relative URL; every page URL starts with the site root. |
| Scraper.PageUrlOfIndex | scripts/scrape_books.py:49-50 | For page n > 1, the trailing `index.html` becomes `page-n.html`. |
| Scraper.PageUrlWithoutIndex | scripts/scrape_books.py:47-50 | Without `index.html` every page has the page-1 URL. |
| Seqs.Somes | api/domain/usecases/categories/get_all.py:10 | `dropna()`: position by position, the values of the present cells, in order; every present value is kept. |
| Sorting.SortByStable | api/domain/usecases/books/get_top_rated.py:5 | The stable sort keeps, for every element, the relative order of the elements that tie with it. |
| Seqs.DistinctFirstSeenOrder | api/domain/usecases/categories/get_all_categories.py:15-17 | De-duplication keeps values in the order of their first occurrence. |
| Text.NatToStringRoundTrip | scripts/scrape_books.py:50 | The decimal rendering of the page number parses back to the number. |

## Left out

- The telemetry recorder is out of the model. The logger's lists are inputs, because no
  shown file implements the retention buffer.
- The log endpoints that read or clear the logger are out of the model.
- CSV and pandas loading are out of the model:
  - the repository's `get_books_list()` rows and `get_books_dataframe()` are inputs;
  - the category column is `Option<seq<Option<string>>>`, with `None` for a missing column
    and for a null cell;
  - the load outcome is `Health.LoadOutcome`.
- `api/domain/usecases/stats/get_overview.py` and the book-api category counter are
  one-line pandas calls (`mean()`, `groupby`), so they are left out.
- The scraper's HTTP/BeautifulSoup loop, the sleep, the UUIDs and `float` price parsing are
  left out: they are network, randomness and float parsing.
- The FastAPI routers, the middlewares, the dashboard and the test scripts are left out:
  they are plumbing and I/O.
- Floating point is not modelled: prices, durations and confidences are `real`.
- `BookStats.GetOverview`: `round(x, 2)` is not applied, so the averages are the unrounded
  values.
- `AnalyticsPerformance.PercentileIndex`: this idealises the float `int(n*0.95)` /
  `int(n*0.99)` as the exact floor of n·95/100 and n·99/100.
- `Text.Lower`: this is ASCII-only lower-casing. Unicode case mapping is not modelled.
- `BookStats.CategoryStats`: `get_categories_stats_usecase` reads `book.category` from
  dict rows, which would raise `AttributeError`. The model counts over `Book` records, as
  the class variant does, and does not model the crash.
- `AnalyticsMetrics.TopEndpointsRanked`: which endpoints survive a tie at the fifth place,
  and their order, is not in its own contract. `Grouping.MostCommonPrefix` states it for
  `most_common(n)`.
- `AnalyticsRecords.Recent`: the order among records with equal timestamps (input order) is
  not stated in its contract.
- A record missing `method` or `status_code` (a request) or `prediction` (a prediction)
  would raise a `KeyError`, and the handler would answer with a 500. The model cannot
  express this: those fields are required in `RequestRecord` and `PredictionRecord`. Only
  the keys the handlers test for or default are optional.
- Exceptions other than a missing key inside the analytics handlers cannot arise in the
  model. Examples are a non-numeric duration or a non-string timestamp, which the record
  types rule out.

=== FILE: analytics_metrics.dfy ===
/** `get_api_metrics` (GET /metrics): request totals, endpoint and method histograms,
    mean response time, error rate, top endpoints and recent activity. */
module AnalyticsMetrics {
  import opened Wrappers
  import opened Seqs
  import opened Grouping
  import opened Text
  import opened AnalyticsRecords

  /** One `recent_activity` entry. */
  datatype Activity = Activity(
    timestamp: string,
    httpMethod: string,
    path: string,
    statusCode: int,
    durationMs: real)

  /** The metrics response; `top_endpoints` entries `{"endpoint", "count"}` are histogram
      entries. */
  datatype Metrics = Metrics(
    totalRequests: nat,
    requestsByEndpoint: Histogram<string>,
    requestsByMethod: Histogram<string>,
    averageResponseTime: real,
    errorRate: real,
    topEndpoints: Histogram<string>,
    recentActivity: seq<Activity>)

  /** The response before any call is counted. */
  const EmptyMetrics := Metrics(0, [], [], 0.0, 0.0, [], [])

  /** How many endpoints `top_endpoints` lists, and how many calls `recent_activity` shows. */
  const TopEndpointCount: nat := 5
  const RecentCount: nat := 10

  /** The 500 errors a missing key turns into (`str(KeyError('k'))` is `'k'`). */
  const MissingPathError := HttpError(500, "Error generating metrics: 'path'")
  const MissingDurationError := HttpError(500, "Error generating metrics: 'duration_ms'")

  /** Every call carries a path. */
  predicate AllHavePaths(calls: seq<RequestRecord>)
  {
    forall i | 0 <= i < |calls| :: calls[i].path.Some?
  }

  /** `call["path"] for call in api_calls`. */
  function PathsOf(calls: seq<RequestRecord>): (ps: seq<string>)
    requires AllHavePaths(calls)
    ensures |ps| == |calls|
    ensures forall i | 0 <= i < |calls| :: ps[i] == calls[i].path.value
  {
    seq(|calls|, i requires 0 <= i < |calls| && AllHavePaths(calls) => calls[i].path.value)
  }

  /** `call["method"] for call in api_calls`. */
  function MethodsOf(calls: seq<RequestRecord>): (ms: seq<string>)
    ensures |ms| == |calls|
    ensures forall i | 0 <= i < |calls| :: ms[i] == calls[i].httpMethod
  {
    seq(|calls|, i requires 0 <= i < |calls| => calls[i].httpMethod)
  }

  /** A call that carries its duration. */
  predicate HasDuration(c: RequestRecord)
  {
    c.durationMs.Some?
  }

  /** `[call["duration_ms"] for call in api_calls if "duration_ms" in call]`: position by
      position, the durations of the calls that carry one. */
  function DurationsOf(calls: seq<RequestRecord>): (ds: seq<real>)
    ensures |ds| == |Filter(calls, HasDuration)|
    ensures forall i | 0 <= i < |ds| :: Some(ds[i]) == Filter(calls, HasDuration)[i].durationMs
    ensures forall i | 0 <= i < |ds| :: exists k | 0 <= k < |calls| :: calls[k].durationMs == Some(ds[i])
    ensures forall k | 0 <= k < |calls| && calls[k].durationMs.Some? :: calls[k].durationMs.value in ds
  {
    var timed := Filter(calls, HasDuration);
    var ds := seq(|timed|, i requires 0 <= i < |timed| => timed[i].durationMs.value);
    FilterKeepsAll(calls, HasDuration);
    forall i | 0 <= i < |ds|
      ensures exists k | 0 <= k < |calls| :: calls[k].durationMs == Some(ds[i])
    {
      var k :| 0 <= k < |calls| && calls[k] == timed[i];
      assert calls[k].durationMs == Some(ds[i]);
    }
    forall k | 0 <= k < |calls| && calls[k].durationMs.Some?
      ensures calls[k].durationMs.value in ds
    {
      assert HasDuration(calls[k]);
      var j :| 0 <= j < |timed| && timed[j] == calls[k];
      assert ds[j] == calls[k].durationMs.value;
    }
    ds
  }

  /** `len(errors) / (len(api_calls) + len(errors)) * 100`. */
  function ErrorRate(calls: nat, errors: nat): (rate: real)
    requires calls + errors > 0
    ensures 0.0 <= rate <= 100.0
    ensures calls > 0 ==> rate < 100.0
    ensures errors == 0 <==> rate == 0.0
    ensures rate * (calls + errors) as real == errors as real * 100.0
  {
    errors as real / (calls + errors) as real * 100.0
  }

  /** The activity entry of a call that carries its path and duration. */
  function ToActivity(c: RequestRecord): Activity
    requires c.path.Some? && c.durationMs.Some?
  {
    Activity(CallStamp(c), c.httpMethod, c.path.value, c.statusCode, c.durationMs.value)
  }

  /** `get_api_metrics()` given the logger's calls and errors. */
  function GetApiMetrics(calls: seq<RequestRecord>, errors: seq<ErrorRecord>): (r: Result<Metrics, HttpError>)
    ensures |calls| == 0 ==> r == Success(EmptyMetrics)
    ensures |calls| > 0 && !AllHavePaths(calls) ==> r == Failure(MissingPathError)
    ensures r.Failure? ==> r.error == MissingPathError || r.error == MissingDurationError
    ensures (forall i | 0 <= i < |calls| :: calls[i].path.Some? && calls[i].durationMs.Some?) ==> r.Success?
    ensures r.Success? && |calls| > 0 ==> r.value.totalRequests == |calls|
    ensures r.Success? && |calls| > 0 ==> r.value.averageResponseTime == AverageResponseTime(calls)
    ensures |calls| > 0 && AllHavePaths(calls) ==>
      (r.Failure? <==> exists i | 0 <= i < |Recent(calls, CallStamp, RecentCount)| ::
                         Recent(calls, CallStamp, RecentCount)[i].durationMs.None?)
  {
    if |calls| == 0 then Success(EmptyMetrics)
    else if !AllHavePaths(calls) then Failure(MissingPathError)
    else Summarize(calls, errors)
  }

  /** A call `recent_activity` can show: it carries its path and duration. */
  predicate Shown(c: RequestRecord)
  {
    c.path.Some? && c.durationMs.Some?
  }

  /** The `recent_activity` entries of calls that can all be shown. */
  function ActivityOf(recent: seq<RequestRecord>): (act: seq<Activity>)
    requires forall i | 0 <= i < |recent| :: Shown(recent[i])
    ensures |act| == |recent|
    ensures forall i | 0 <= i < |recent| ::
      && act[i].timestamp == CallStamp(recent[i])
      && act[i].httpMethod == recent[i].httpMethod
      && Some(act[i].path) == recent[i].path
      && act[i].statusCode == recent[i].statusCode
      && Some(act[i].durationMs) == recent[i].durationMs
  {
    seq(|recent|, i requires 0 <= i < |recent| && Shown(recent[i]) => ToActivity(recent[i]))
  }

  /** The mean duration of the timed calls, 0 when none is timed. */
  function AverageResponseTime(calls: seq<RequestRecord>): (avg: real)
    ensures |DurationsOf(calls)| == 0 ==> avg == 0.0
    ensures |DurationsOf(calls)| > 0 ==> Min(DurationsOf(calls)) <= avg <= Max(DurationsOf(calls))
    ensures |DurationsOf(calls)| > 0 ==> SharesOut(avg, |DurationsOf(calls)|, Sum(DurationsOf(calls)))
  {
    var times := DurationsOf(calls);
    if |times| > 0 then
      MeanBetween(times);
      MeanTimesCount(times, |times|, Mean(times));
      Mean(times)
    else 0.0
  }

  /** The metrics of a non-empty log whose calls all carry a path; it fails when one of the
      ten newest calls lacks a duration. */
  function Summarize(calls: seq<RequestRecord>, errors: seq<ErrorRecord>): (r: Result<Metrics, HttpError>)
    requires |calls| > 0 && AllHavePaths(calls)
    ensures r.Failure? ==> r.error == MissingDurationError
    ensures r.Failure? <==> exists i | 0 <= i < |Recent(calls, CallStamp, RecentCount)| ::
      Recent(calls, CallStamp, RecentCount)[i].durationMs.None?
    ensures (forall i | 0 <= i < |calls| :: calls[i].durationMs.Some?) ==> r.Success?
    ensures r.Success? ==> r.value.totalRequests == |calls|
    ensures r.Success? ==> r.value.averageResponseTime == AverageResponseTime(calls)
    ensures r.Success? ==> r.value.errorRate == ErrorRate(|calls|, |errors|)
    ensures r.Success? ==> forall i | 0 <= i < |Recent(calls, CallStamp, RecentCount)| ::
      Shown(Recent(calls, CallStamp, RecentCount)[i])
    ensures r.Success? ==> r.value.recentActivity == ActivityOf(Recent(calls, CallStamp, RecentCount))
  {
    var byEndpoint := Tally(PathsOf(calls));
    var recent := Recent(calls, CallStamp, RecentCount);
    if exists i | 0 <= i < |recent| :: recent[i].durationMs.None? then Failure(MissingDurationError)
    else
      assert forall i | 0 <= i < |recent| :: Shown(recent[i]);
      Success(Metrics(|calls|, byEndpoint, Tally(MethodsOf(calls)), AverageResponseTime(calls),
                      ErrorRate(|calls|, |errors|), MostCommon(byEndpoint, TopEndpointCount),
                      ActivityOf(recent)))
  }

  /** Every call is counted once under its path and once under its method: the histograms
      list the distinct paths and methods in first-seen order, each with its number of
      calls, and their counts add up to the number of calls. */
  lemma MetricsCounts(calls: seq<RequestRecord>, errors: seq<ErrorRecord>)
    requires |calls| > 0 && GetApiMetrics(calls, errors).Success?
    ensures AllHavePaths(calls)
    ensures var m := GetApiMetrics(calls, errors).value;
      && KeysOf(m.requestsByEndpoint) == Distinct(PathsOf(calls))
      && KeysOf(m.requestsByMethod) == Distinct(MethodsOf(calls))
      && (forall i | 0 <= i < |m.requestsByEndpoint| ::
            m.requestsByEndpoint[i].1 == multiset(PathsOf(calls))[m.requestsByEndpoint[i].0])
      && (forall i | 0 <= i < |m.requestsByMethod| ::
            m.requestsByMethod[i].1 == multiset(MethodsOf(calls))[m.requestsByMethod[i].0])
      && TotalCount(m.requestsByEndpoint) == |calls|
      && TotalCount(m.requestsByMethod) == |calls|
  {
    assert GetApiMetrics(calls, errors) == Summarize(calls, errors);
    TallySpec(PathsOf(calls));
    TallySpec(MethodsOf(calls));
  }

  /** The reported average response time is the mean of the timed calls' durations: times
      their number it gives back their total, so it lies between the fastest and the
      slowest; it is 0 when no call carries a duration. */
  lemma AverageResponseTimeBounds(calls: seq<RequestRecord>, errors: seq<ErrorRecord>)
    requires GetApiMetrics(calls, errors).Success?
    ensures var avg := GetApiMetrics(calls, errors).value.averageResponseTime;
      var ds := DurationsOf(calls);
      && (|ds| == 0 ==> avg == 0.0)
      && (|ds| > 0 ==> Min(ds) <= avg <= Max(ds))
      && (|ds| > 0 ==> SharesOut(avg, |ds|, Sum(ds)))
  {
    if |calls| > 0 {
      assert GetApiMetrics(calls, errors) == Summarize(calls, errors);
    }
  }

  /** `top_endpoints` is `most_common(5)` of the endpoint histogram: at most five entries
      taken from it, by decreasing count, and no endpoint left out has more calls than one
      listed. */
  lemma TopEndpointsRanked(calls: seq<RequestRecord>, errors: seq<ErrorRecord>)
    requires GetApiMetrics(calls, errors).Success?
    ensures var m := GetApiMetrics(calls, errors).value;
      var top, all := m.topEndpoints, m.requestsByEndpoint;
      && |top| == (if |all| < TopEndpointCount then |all| else TopEndpointCount)
      && (forall i | 0 <= i < |top| :: top[i] in all)
      && multiset(top) <= multiset(all)
      && (forall i, j | 0 <= i < j < |top| :: top[i].1 >= top[j].1)
      && (forall i, j | 0 <= i < |top| && 0 <= j < |all| && all[j] !in top :: all[j].1 <= top[i].1)
  {
    if |calls| > 0 {
      assert GetApiMetrics(calls, errors) == Summarize(calls, errors);
    }
  }

  /** `recent_activity` shows the ten newest calls (or all of them), newest first. */
  lemma RecentActivityNewestFirst(calls: seq<RequestRecord>, errors: seq<ErrorRecord>)
    requires GetApiMetrics(calls, errors).Success?
    ensures var act := GetApiMetrics(calls, errors).value.recentActivity;
      && |act| == (if |calls| < RecentCount then |calls| else RecentCount)
      && (forall i, j | 0 <= i < j < |act| :: StrLe(act[j].timestamp, act[i].timestamp))
  {
    if |calls| > 0 {
      assert GetApiMetrics(calls, errors) == Summarize(calls, errors);
    }
  }

  /** The activity entry `a` carries the fields of the call `c`. */
  predicate CopiedFrom(a: Activity, c: RequestRecord) {
    && CallStamp(c) == a.timestamp && c.httpMethod == a.httpMethod
    && c.path == Some(a.path) && c.statusCode == a.statusCode
    && c.durationMs == Some(a.durationMs)
  }

  /** Entry `i` of `recent_activity` carries the fields of the `i`-th newest logged call. */
  lemma RecentActivityFromLog(calls: seq<RequestRecord>, errors: seq<ErrorRecord>)
    requires GetApiMetrics(calls, errors).Success?
    ensures var act := GetApiMetrics(calls, errors).value.recentActivity;
      var recent := Recent(calls, CallStamp, RecentCount);
      && |act| == |recent|
      && forall i | 0 <= i < |act| :: recent[i] in calls && CopiedFrom(act[i], recent[i])
  {
    if |calls| > 0 {
      assert GetApiMetrics(calls, errors) == Summarize(calls, errors);
      var recent := Recent(calls, CallStamp, RecentCount);
      var act := ActivityOf(recent);
      forall i | 0 <= i < |act|
        ensures CopiedFrom(act[i], recent[i])
      {
      }
    }
  }

  /** The error rate reported is the share `ErrorRate` of the logged calls and errors. */
  lemma ErrorRateReported(calls: seq<RequestRecord>, errors: seq<ErrorRecord>)
    requires |calls| > 0 && GetApiMetrics(calls, errors).Success?
    ensures GetApiMetrics(calls, errors).value.errorRate == ErrorRate(|calls|, |errors|)
  {
    assert GetApiMetrics(calls, errors) == Summarize(calls, errors);
  }

}

=== FILE: analytics_performance.dfy ===
/** `get_performance_metrics` (GET /performance): the response-time distribution, per-endpoint
    timings, the error breakdown by type and the system-health summary. */
module AnalyticsPerformance {
  import opened Wrappers
  import opened Seqs
  import opened Sorting
  import opened Grouping
  import opened AnalyticsRecords
  import AnalyticsMetrics

  /** `response_time_distribution`. */
  datatype Distribution = Distribution(min: real, max: real, median: real, p95: real, p99: real)

  /** One `endpoint_performance` entry. */
  datatype EndpointStats = EndpointStats(
    avgResponseTime: real,
    requestCount: nat,
    minResponseTime: real,
    maxResponseTime: real)

  /** `system_health`. */
  datatype SystemHealth = SystemHealth(
    uptimePercentage: real,
    totalRequests: nat,
    errorCount: nat,
    successRate: real)

  /** The performance response; a section the handler leaves as `{}` is `None` or empty. */
  datatype Performance = Performance(
    distribution: Option<Distribution>,
    endpointPerformance: seq<(string, EndpointStats)>,
    errorBreakdown: Histogram<string>,
    systemHealth: Option<SystemHealth>)

  /** The error type recorded for an error without one. */
  const UnknownErrorType := "Unknown"

  /** The response when no call has been logged. */
  const EmptyPerformance := Performance(None, [], [], None)

  /** `sorted(...)` on numbers: ascending. */
  function Ascending(): (real, real) -> bool
  {
    (a: real, b: real) => a <= b
  }

  lemma AscendingOrder()
    ensures TotalPreorder(Ascending())
  {
  }

  /** The predicates "at most `v`" and "at least `v`". */
  function AtMost(v: real): real -> bool { x => x <= v }
  function AtLeast(v: real): real -> bool { x => x >= v }

  /** `int(n * pct / 100)`, the index a percentile reads from the sorted samples. */
  function PercentileIndex(n: nat, pct: nat): (i: nat)
    requires pct < 100
    ensures n > 0 ==> i < n
    ensures i * 100 <= n * pct < (i + 1) * 100
  {
    (n * pct) / 100
  }

  /** The median index never exceeds the 95th-percentile index, which never exceeds the
      99th-percentile index. */
  lemma IndexOrder(n: nat)
    ensures n / 2 <= PercentileIndex(n, 95) <= PercentileIndex(n, 99)
  {
    var h, a, b := n / 2, PercentileIndex(n, 95), PercentileIndex(n, 99);
    assert h * 100 <= n * 95 < (a + 1) * 100;
    assert a * 100 <= n * 99 < (b + 1) * 100;
  }

  /** Every element of the ascending sort of `times` lies between the least and greatest
      time, and later elements are no smaller. */
  lemma SortedFacts(times: seq<real>)
    requires |times| > 0
    ensures TotalPreorder(Ascending())
    ensures forall k | 0 <= k < |times| :: SortBy(times, Ascending())[k] in times
    ensures forall k | 0 <= k < |times| ::
      Min(times) <= SortBy(times, Ascending())[k] <= Max(times)
  {
    AscendingOrder();
    var sorted := SortBy(times, Ascending());
    assert forall k | 0 <= k < |sorted| :: sorted[k] in multiset(times);
  }

  /** `sorted(response_times)`: the durations in ascending order. */
  function SortedTimes(times: seq<real>): (sorted: seq<real>)
    ensures |sorted| == |times| && multiset(sorted) == multiset(times)
    ensures forall i, j | 0 <= i <= j < |sorted| :: sorted[i] <= sorted[j]
  {
    AscendingSorted(times);
    SortBy(times, Ascending())
  }

  /** The distribution of the timed calls' durations; `None` when there are none. */
  function ResponseTimeDistribution(times: seq<real>): (d: Option<Distribution>)
    ensures d.None? <==> |times| == 0
    ensures d.Some? ==> d.value.min == Min(times) && d.value.max == Max(times)
    ensures d.Some? ==> d.value.median in times && d.value.p95 in times && d.value.p99 in times
    ensures d.Some? ==>
      d.value.min <= d.value.median <= d.value.p95 <= d.value.p99 <= d.value.max
    ensures d.Some? && |times| <= 20 ==> d.value.p95 == d.value.max
    ensures d.Some? && |times| <= 100 ==> d.value.p99 == d.value.max
    ensures d.Some? ==> d.value.median == SortedTimes(times)[|times| / 2]
    ensures d.Some? && |times| > 20 ==> d.value.p95 == SortedTimes(times)[PercentileIndex(|times|, 95)]
    ensures d.Some? && |times| > 100 ==> d.value.p99 == SortedTimes(times)[PercentileIndex(|times|, 99)]
  {
    if |times| == 0 then None
    else
      SortedFacts(times);
      var sorted := SortBy(times, Ascending());
      var n := |sorted|;
      var i95 := PercentileIndex(n, 95);
      var i99 := PercentileIndex(n, 99);
      IndexOrder(n);
      AscendingSorted(times);
      assert sorted[n / 2] <= sorted[i95] <= sorted[i99];
      Some(Distribution(
        Min(times),
        Max(times),
        sorted[n / 2],
        if n > 20 then sorted[i95] else Max(times),
        if n > 100 then sorted[i99] else Max(times)))
  }

  /** The ascending sort, as plain comparisons between positions. */
  lemma AscendingSorted(times: seq<real>)
    ensures TotalPreorder(Ascending())
    ensures forall i, j | 0 <= i <= j < |times| ::
      SortBy(times, Ascending())[i] <= SortBy(times, Ascending())[j]
  {
    AscendingOrder();
    var sorted := SortBy(times, Ascending());
    assert forall i, j | 0 <= i < j < |sorted| :: Ascending()(sorted[i], sorted[j]);
  }

  /** In an ascending sequence, the element at index `k` has at least `k + 1` values at
      most it. */
  lemma {:induction false} AscendingCountBelow(sorted: seq<real>, k: nat)
    requires k < |sorted|
    requires forall i, j | 0 <= i <= j < |sorted| :: sorted[i] <= sorted[j]
    ensures |Filter(sorted, AtMost(sorted[k]))| >= k + 1
  {
    var p := AtMost(sorted[k]);
    var lo, hi := sorted[..k + 1], sorted[k + 1..];
    assert sorted == lo + hi;
    FilterConcat(lo, hi, p);
    forall i | 0 <= i < |lo|
      ensures p(lo[i])
    {
      assert lo[i] == sorted[i];
    }
    FilterAll(lo, p);
  }

  /** In an ascending sequence, the element at index `k` has at least `|sorted| - k`
      values at least it. */
  lemma {:induction false} AscendingCountAbove(sorted: seq<real>, k: nat)
    requires k < |sorted|
    requires forall i, j | 0 <= i <= j < |sorted| :: sorted[i] <= sorted[j]
    ensures |Filter(sorted, AtLeast(sorted[k]))| >= |sorted| - k
  {
    var p := AtLeast(sorted[k]);
    var lo, hi := sorted[..k], sorted[k..];
    assert sorted == lo + hi;
    FilterConcat(lo, hi, p);
    forall i | 0 <= i < |hi|
      ensures p(hi[i])
    {
      assert hi[i] == sorted[k + i];
    }
    FilterAll(hi, p);
  }

  /** The element at index `k` of the ascending sort has at least `k + 1` values at most
      it. */
  lemma {:induction false} RankFromBelow(times: seq<real>, k: nat)
    requires k < |times|
    ensures TotalPreorder(Ascending())
    ensures |Filter(times, AtMost(SortBy(times, Ascending())[k]))| >= k + 1
  {
    AscendingSorted(times);
    var sorted := SortBy(times, Ascending());
    AscendingCountBelow(sorted, k);
    FilterPermutation(times, sorted, AtMost(sorted[k]));
  }

  /** The element at index `k` of the ascending sort has at least `n - k` values at least
      it. */
  lemma {:induction false} RankFromAbove(times: seq<real>, k: nat)
    requires k < |times|
    ensures TotalPreorder(Ascending())
    ensures |Filter(times, AtLeast(SortBy(times, Ascending())[k]))| >= |times| - k
  {
    AscendingSorted(times);
    var sorted := SortBy(times, Ascending());
    AscendingCountAbove(sorted, k);
    FilterPermutation(times, sorted, AtLeast(sorted[k]));
  }

  /** Every value is at most the maximum. */
  lemma AllAtMostMax(times: seq<real>)
    requires |times| > 0
    ensures |Filter(times, AtMost(Max(times)))| == |times|
  {
    FilterAll(times, AtMost(Max(times)));
  }

  /** What the statistics mean: at least half of the times are at most the median and at
      least half are at least it; more than 95% of the times are at most `p95`, and more
      than 99% at most `p99` (with either fallback to the maximum as well). */
  lemma DistributionRanks(times: seq<real>)
    requires |times| > 0
    ensures var d := ResponseTimeDistribution(times).value;
      && 2 * |Filter(times, AtMost(d.median))| > |times|
      && 2 * |Filter(times, AtLeast(d.median))| >= |times|
      && 100 * |Filter(times, AtMost(d.p95))| > 95 * |times|
      && 100 * |Filter(times, AtMost(d.p99))| > 99 * |times|
      && (|times| > 20 ==> 100 * |Filter(times, AtLeast(d.p95))| >= 5 * |times|)
      && (|times| > 100 ==> 100 * |Filter(times, AtLeast(d.p99))| >= |times|)
  {
    var n := |times|;
    var d := ResponseTimeDistribution(times).value;
    RankFromBelow(times, n / 2);
    RankFromAbove(times, n / 2);
    AllAtMostMax(times);
    if n > 20 {
      RankFromBelow(times, PercentileIndex(n, 95));
      RankFromAbove(times, PercentileIndex(n, 95));
    }
    if n > 100 {
      RankFromBelow(times, PercentileIndex(n, 99));
      RankFromAbove(times, PercentileIndex(n, 99));
    }
  }

  /** A call with both a path and a duration, the calls `endpoint_performance` counts. */
  predicate IsTimed(c: RequestRecord)
  {
    c.path.Some? && c.durationMs.Some?
  }

  /** `(call["path"], call["duration_ms"])` for each timed call, in log order. */
  function TimedSamples(calls: seq<RequestRecord>): (pairs: seq<(string, real)>)
    ensures |pairs| == |Filter(calls, IsTimed)|
    ensures forall j | 0 <= j < |pairs| ::
      exists c | c in calls :: c.path == Some(pairs[j].0) && c.durationMs == Some(pairs[j].1)
    ensures forall j | 0 <= j < |pairs| ::
      && Filter(calls, IsTimed)[j].path == Some(pairs[j].0)
      && Filter(calls, IsTimed)[j].durationMs == Some(pairs[j].1)
  {
    var timed := Filter(calls, IsTimed);
    seq(|timed|, i requires 0 <= i < |timed| => (timed[i].path.value, timed[i].durationMs.value))
  }

  /** The statistics of one endpoint's durations. */
  function StatsOf(times: seq<real>): (e: EndpointStats)
    requires |times| > 0
    ensures e.requestCount == |times| >= 1
    ensures e.minResponseTime <= e.avgResponseTime <= e.maxResponseTime
    ensures e.minResponseTime in times && e.maxResponseTime in times
    ensures forall i | 0 <= i < |times| :: e.minResponseTime <= times[i] <= e.maxResponseTime
    ensures SharesOut(e.avgResponseTime, |times|, Sum(times))
  {
    MeanBetween(times);
    MeanTimesCount(times, |times|, Mean(times));
    EndpointStats(Mean(times), |times|, Min(times), Max(times))
  }

  /** The statistics of each group of durations, keyed as the groups are. */
  function StatsPerGroup(g: seq<(string, seq<real>)>): (r: seq<(string, EndpointStats)>)
    requires forall i | 0 <= i < |g| :: |g[i].1| > 0
    ensures KeysOf(r) == KeysOf(g)
    ensures forall i | 0 <= i < |r| ::
      && r[i].1.requestCount == |g[i].1|
      && r[i].1.minResponseTime <= r[i].1.avgResponseTime <= r[i].1.maxResponseTime
      && r[i].1.minResponseTime in g[i].1 && r[i].1.maxResponseTime in g[i].1
      && SharesOut(r[i].1.avgResponseTime, |g[i].1|, Sum(g[i].1))
      && forall j | 0 <= j < |g[i].1| ::
           r[i].1.minResponseTime <= g[i].1[j] <= r[i].1.maxResponseTime
  {
    seq(|g|, i requires 0 <= i < |g| && |g[i].1| > 0 => (g[i].0, StatsOf(g[i].1)))
  }

  /** `endpoint_performance`: the timed calls grouped by path, in first-seen order. */
  function EndpointPerformance(calls: seq<RequestRecord>): (r: seq<(string, EndpointStats)>)
    ensures KeysOf(r) == Distinct(KeysOf(TimedSamples(calls)))
    ensures forall i | 0 <= i < |r| ::
      r[i].1.requestCount == multiset(KeysOf(TimedSamples(calls)))[r[i].0] >= 1
    ensures forall i | 0 <= i < |r| ::
      r[i].1.minResponseTime <= r[i].1.avgResponseTime <= r[i].1.maxResponseTime
    ensures forall i | 0 <= i < |r| ::
      var times := ValuesFor(TimedSamples(calls), r[i].0);
      && SharesOut(r[i].1.avgResponseTime, |times|, Sum(times))
      && r[i].1.minResponseTime in times && r[i].1.maxResponseTime in times
      && forall j | 0 <= j < |times| :: r[i].1.minResponseTime <= times[j] <= r[i].1.maxResponseTime
  {
    var pairs := TimedSamples(calls);
    var g := GroupBy(pairs);
    GroupBySpec(pairs);
    GroupSizes(pairs);
    StatsByPath(pairs);
    StatsPerGroup(g)
  }

  /** The statistics of each group describe the durations logged for its path. */
  lemma StatsByPath(pairs: seq<(string, real)>)
    ensures forall i | 0 <= i < |GroupBy(pairs)| :: |GroupBy(pairs)[i].1| > 0
    ensures var r := StatsPerGroup(GroupBy(pairs));
      forall i | 0 <= i < |r| ::
        var times := ValuesFor(pairs, r[i].0);
        && SharesOut(r[i].1.avgResponseTime, |times|, Sum(times))
        && r[i].1.minResponseTime in times && r[i].1.maxResponseTime in times
        && forall j | 0 <= j < |times| :: r[i].1.minResponseTime <= times[j] <= r[i].1.maxResponseTime
  {
    var g := GroupBy(pairs);
    GroupBySpec(pairs);
    GroupSizes(pairs);
    var r := StatsPerGroup(g);
    forall i | 0 <= i < |r|
      ensures ValuesFor(pairs, r[i].0) == g[i].1
    {
      assert r[i].0 == g[i].0;
    }
  }

  /** The `request_count` of each endpoint entry. */
  function RequestCounts(r: seq<(string, EndpointStats)>): (h: Histogram<string>)
    ensures KeysOf(h) == KeysOf(r)
  {
    seq(|r|, i requires 0 <= i < |r| => (r[i].0, r[i].1.requestCount))
  }

  /** Every timed call is counted under its endpoint, once: the request counts add up to
      the number of calls that carry both a path and a duration. */
  lemma EndpointCountsTotal(calls: seq<RequestRecord>)
    ensures TotalCount(RequestCounts(EndpointPerformance(calls))) == |Filter(calls, IsTimed)|
  {
    var pairs := TimedSamples(calls);
    var g := GroupBy(pairs);
    assert RequestCounts(EndpointPerformance(calls)) == Sizes(g);
    TotalCountSizes(g);
    GroupByTotal(pairs);
  }

  /** An endpoint's minimum and maximum bound every duration logged for it, and each is
      the duration of some call to it. */
  lemma EndpointBounds(calls: seq<RequestRecord>, i: nat)
    requires i < |EndpointPerformance(calls)|
    ensures var (path, e) := EndpointPerformance(calls)[i];
      && (forall j | 0 <= j < |TimedSamples(calls)| && TimedSamples(calls)[j].0 == path ::
            e.minResponseTime <= TimedSamples(calls)[j].1 <= e.maxResponseTime)
      && (path, e.minResponseTime) in TimedSamples(calls)
      && (path, e.maxResponseTime) in TimedSamples(calls)
  {
    var pairs := TimedSamples(calls);
    GroupBySpec(pairs);
    var g := GroupBy(pairs);
    var r := StatsPerGroup(g);
    assert EndpointPerformance(calls) == r;
    var (path, e) := r[i];
    var vs := g[i].1;
    assert g[i].0 == path && vs == ValuesFor(pairs, path);
    ValuesForMembers(pairs, path);
    forall j | 0 <= j < |pairs| && pairs[j].0 == path
      ensures e.minResponseTime <= pairs[j].1 <= e.maxResponseTime
    {
      assert pairs[j].1 in vs;
    }
  }

  /** `error.get("error_type", "Unknown")`. */
  function ErrorTypeOf(e: ErrorRecord): string
  {
    e.errorType.GetOr(UnknownErrorType)
  }

  /** The error type of every logged error, in log order. */
  function ErrorTypes(errors: seq<ErrorRecord>): (ts: seq<string>)
    ensures |ts| == |errors|
    ensures forall i | 0 <= i < |errors| :: ts[i] == ErrorTypeOf(errors[i])
  {
    seq(|errors|, i requires 0 <= i < |errors| => ErrorTypeOf(errors[i]))
  }

  /** `system_health`, given that at least one call was logged. */
  function Health(calls: nat, errors: nat): (h: SystemHealth)
    requires calls > 0
    ensures h.totalRequests == calls + errors && h.errorCount == errors
    ensures 0.0 < h.successRate <= 100.0
    ensures h.uptimePercentage == h.successRate
    ensures errors == 0 <==> h.successRate == 100.0
    ensures h.uptimePercentage + AnalyticsMetrics.ErrorRate(calls, errors) == 100.0
  {
    var total := calls + errors;
    var uptime := 100.0 - (errors as real / total as real * 100.0);
    var success := calls as real / total as real * 100.0;
    assert uptime == success by {
      assert errors as real / total as real + calls as real / total as real == 1.0;
    }
    SystemHealth(uptime, total, errors, success)
  }

  /** `get_performance_metrics()` given the logger's calls and errors; it cannot fail. */
  function GetPerformanceMetrics(calls: seq<RequestRecord>, errors: seq<ErrorRecord>): (r: Performance)
    ensures |calls| == 0 <==> r == EmptyPerformance
    ensures r.distribution.Some? ==> r.systemHealth.Some?
    ensures |calls| > 0 ==>
      && r.systemHealth.Some?
      && r.systemHealth.value.totalRequests == |calls| + |errors|
      && r.systemHealth.value.errorCount == |errors|
    ensures |calls| > 0 ==> TotalCount(r.errorBreakdown) == |errors|
    ensures |calls| > 0 ==> KeysOf(r.errorBreakdown) == Distinct(ErrorTypes(errors))
    ensures |calls| > 0 ==> forall i | 0 <= i < |r.errorBreakdown| ::
      r.errorBreakdown[i].1 == multiset(ErrorTypes(errors))[r.errorBreakdown[i].0]
    ensures |calls| > 0 ==>
      && r.distribution == ResponseTimeDistribution(AnalyticsMetrics.DurationsOf(calls))
      && r.endpointPerformance == EndpointPerformance(calls)
      && r.errorBreakdown == Tally(ErrorTypes(errors))
      && r.systemHealth == Some(Health(|calls|, |errors|))
  {
    if |calls| == 0 then EmptyPerformance
    else
      var times := AnalyticsMetrics.DurationsOf(calls);
      TallySpec(ErrorTypes(errors));
      Performance(
        ResponseTimeDistribution(times),
        EndpointPerformance(calls),
        Tally(ErrorTypes(errors)),
        Some(Health(|calls|, |errors|)))
  }

  /** The two handlers agree: `/performance` reports as uptime the complement of the error
      rate `/metrics` reports for the same log. */
  lemma UptimeComplementsErrorRate(calls: seq<RequestRecord>, errors: seq<ErrorRecord>)
    requires |calls| > 0 && AnalyticsMetrics.GetApiMetrics(calls, errors).Success?
    ensures GetPerformanceMetrics(calls, errors).systemHealth.Some?
    ensures GetPerformanceMetrics(calls, errors).systemHealth.value.uptimePercentage
      + AnalyticsMetrics.GetApiMetrics(calls, errors).value.errorRate == 100.0
  {
    AnalyticsMetrics.ErrorRateReported(calls, errors);
    assert GetPerformanceMetrics(calls, errors).systemHealth == Some(Health(|calls|, |errors|));
  }
}

=== FILE: analytics_predictions.dfy ===
/** `get_ml_predictions` (GET /ml-predictions): the number of predictions, their mean
    confidence, per-book statistics and the most recent predictions. */
module AnalyticsPredictions {
  import opened Wrappers
  import opened Seqs
  import opened Grouping
  import opened Text
  import opened AnalyticsRecords

  /** One `predictions_by_book` entry. */
  datatype BookPredictionStats = BookPredictionStats(
    count: nat,
    averagePrediction: real,
    averageConfidence: real)

  /** One `recent_predictions` entry. */
  datatype RecentPrediction = RecentPrediction(
    timestamp: string,
    bookId: string,
    prediction: real,
    confidence: real)

  /** The prediction-statistics response. */
  datatype PredictionStats = PredictionStats(
    totalPredictions: nat,
    averageConfidence: real,
    predictionsByBook: seq<(string, BookPredictionStats)>,
    recentPredictions: seq<RecentPrediction>)

  /** The response before any prediction is counted. */
  const EmptyPredictionStats := PredictionStats(0, 0.0, [], [])

  /** How many predictions `recent_predictions` shows. */
  const RecentPredictionCount: nat := 10

  /** The 500 errors a missing key turns into. */
  const MissingConfidenceError := HttpError(500, "Error generating ML predictions: 'confidence'")
  const MissingBookIdError := HttpError(500, "Error generating ML predictions: 'book_id'")

  /** A prediction `book_predictions` files under its book. */
  predicate HasBookId(p: PredictionRecord)
  {
    p.bookId.Some?
  }

  /** A prediction for a book whose confidence is missing: reading it raises. */
  predicate LacksConfidence(p: PredictionRecord)
  {
    p.bookId.Some? && p.confidence.None?
  }

  /** A prediction that carries its confidence. */
  predicate HasConfidence(p: PredictionRecord)
  {
    p.confidence.Some?
  }

  /** `[pred["confidence"] for pred in ml_predictions if "confidence" in pred]`: position by
      position, the confidences of the predictions that carry one. */
  function ConfidencesOf(preds: seq<PredictionRecord>): (cs: seq<real>)
    ensures |cs| == |Filter(preds, HasConfidence)|
    ensures forall i | 0 <= i < |cs| :: Some(cs[i]) == Filter(preds, HasConfidence)[i].confidence
    ensures forall i | 0 <= i < |cs| :: exists p | p in preds :: p.confidence == Some(cs[i])
    ensures forall k | 0 <= k < |preds| && preds[k].confidence.Some? ::
      preds[k].confidence.value in cs
  {
    var rated := Filter(preds, HasConfidence);
    var cs := seq(|rated|, i requires 0 <= i < |rated| => rated[i].confidence.value);
    FilterKeepsAll(preds, HasConfidence);
    forall i | 0 <= i < |cs|
      ensures exists p | p in preds :: p.confidence == Some(cs[i])
    {
      assert rated[i] in preds && rated[i].confidence == Some(cs[i]);
    }
    forall k | 0 <= k < |preds| && preds[k].confidence.Some?
      ensures preds[k].confidence.value in cs
    {
      assert HasConfidence(preds[k]);
      var j :| 0 <= j < |rated| && rated[j] == preds[k];
      assert cs[j] == preds[k].confidence.value;
    }
    cs
  }

  /** `(pred["book_id"], pred)` for each prediction that names a book, in log order. */
  function KeyedByBook(preds: seq<PredictionRecord>): (pairs: seq<(string, PredictionRecord)>)
    ensures |pairs| == |Filter(preds, HasBookId)|
    ensures forall j | 0 <= j < |pairs| :: pairs[j].1 in preds && pairs[j].1.bookId == Some(pairs[j].0)
    ensures forall j | 0 <= j < |pairs| :: pairs[j].1 == Filter(preds, HasBookId)[j]
  {
    var named := Filter(preds, HasBookId);
    seq(|named|, i requires 0 <= i < |named| => (named[i].bookId.value, named[i]))
  }

  /** The model outputs of a group of predictions. */
  function PredictionValues(group: seq<PredictionRecord>): (vs: seq<real>)
    ensures |vs| == |group|
    ensures forall i | 0 <= i < |group| :: vs[i] == group[i].prediction
  {
    seq(|group|, i requires 0 <= i < |group| => group[i].prediction)
  }

  /** The confidences of a group of predictions that all carry one. */
  function GroupConfidences(group: seq<PredictionRecord>): (cs: seq<real>)
    requires AllConfident(group)
    ensures |cs| == |group|
    ensures forall i | 0 <= i < |group| :: Some(cs[i]) == group[i].confidence
  {
    seq(|group|, i requires 0 <= i < |group| && AllConfident(group) => group[i].confidence.value)
  }

  /** The statistics of one book's predictions. */
  function BookStatsOf(group: seq<PredictionRecord>): (b: BookPredictionStats)
    requires |group| > 0
    requires AllConfident(group)
    ensures b.count == |group|
    ensures Min(PredictionValues(group)) <= b.averagePrediction <= Max(PredictionValues(group))
    ensures Min(GroupConfidences(group)) <= b.averageConfidence <= Max(GroupConfidences(group))
    ensures SharesOut(b.averagePrediction, |group|, Sum(PredictionValues(group)))
    ensures SharesOut(b.averageConfidence, |group|, Sum(GroupConfidences(group)))
  {
    MeanBetween(PredictionValues(group));
    MeanBetween(GroupConfidences(group));
    MeanTimesCount(PredictionValues(group), |group|, Mean(PredictionValues(group)));
    MeanTimesCount(GroupConfidences(group), |group|, Mean(GroupConfidences(group)));
    BookPredictionStats(|group|, Mean(PredictionValues(group)), Mean(GroupConfidences(group)))
  }

  /** The entry shown for a recent prediction that names its book and confidence. */
  function ToRecent(p: PredictionRecord): RecentPrediction
    requires p.bookId.Some? && p.confidence.Some?
  {
    RecentPrediction(PredictionStamp(p), p.bookId.value, p.prediction, p.confidence.value)
  }

  /** The `recent_predictions` entries of predictions that all name a book and carry a
      confidence. */
  function RecentOf(recent: seq<PredictionRecord>): (shown: seq<RecentPrediction>)
    requires forall i | 0 <= i < |recent| :: recent[i].bookId.Some?
    requires AllConfident(recent)
    ensures |shown| == |recent|
    ensures forall i | 0 <= i < |recent| ::
      && shown[i].timestamp == PredictionStamp(recent[i])
      && Some(shown[i].bookId) == recent[i].bookId
      && shown[i].prediction == recent[i].prediction
      && Some(shown[i].confidence) == recent[i].confidence
  {
    seq(|recent|, i requires 0 <= i < |recent| && recent[i].bookId.Some? && AllConfident(recent)
                    => ToRecent(recent[i]))
  }

  /** Every prediction in `group` carries a confidence. */
  predicate AllConfident(group: seq<PredictionRecord>)
  {
    forall j | 0 <= j < |group| :: group[j].confidence.Some?
  }

  /** When no prediction naming a book lacks a confidence, neither does any book's group. */
  lemma GroupsConfident(preds: seq<PredictionRecord>)
    requires forall i | 0 <= i < |preds| :: !LacksConfidence(preds[i])
    ensures forall i | 0 <= i < |GroupBy(KeyedByBook(preds))| ::
      AllConfident(GroupBy(KeyedByBook(preds))[i].1)
  {
    var pairs := KeyedByBook(preds);
    var g := GroupBy(pairs);
    GroupBySpec(pairs);
    forall i, j | 0 <= i < |g| && 0 <= j < |g[i].1|
      ensures g[i].1[j].confidence.Some?
    {
      ValuesForMembers(pairs, g[i].0);
      assert (g[i].0, g[i].1[j]) in pairs;
    }
  }

  /** `book_predictions`: the predictions that name a book, grouped by book in first-seen
      order; every group carries its confidences. */
  function BookGroups(preds: seq<PredictionRecord>): (g: seq<(string, seq<PredictionRecord>)>)
    requires forall i | 0 <= i < |preds| :: !LacksConfidence(preds[i])
    ensures g == GroupBy(KeyedByBook(preds))
    ensures KeysOf(g) == Distinct(KeysOf(KeyedByBook(preds)))
    ensures forall i | 0 <= i < |g| ::
      && |g[i].1| == multiset(KeysOf(KeyedByBook(preds)))[g[i].0] >= 1
      && AllConfident(g[i].1)
  {
    var pairs := KeyedByBook(preds);
    GroupBySpec(pairs);
    GroupsConfident(preds);
    GroupSizes(pairs);
    GroupBy(pairs)
  }

  /** `predictions_by_book`, given that every prediction naming a book has a confidence. */
  function PredictionsByBook(preds: seq<PredictionRecord>): (r: seq<(string, BookPredictionStats)>)
    requires forall i | 0 <= i < |preds| :: !LacksConfidence(preds[i])
    ensures KeysOf(r) == Distinct(KeysOf(KeyedByBook(preds)))
    ensures forall i | 0 <= i < |r| ::
      r[i].1.count == multiset(KeysOf(KeyedByBook(preds)))[r[i].0] >= 1
    ensures |r| == |BookGroups(preds)|
    ensures forall i | 0 <= i < |r| ::
      && BookGroups(preds)[i].0 == r[i].0
      && r[i].1 == BookStatsOf(BookGroups(preds)[i].1)
  {
    var g := BookGroups(preds);
    var r := seq(|g|, i requires 0 <= i < |g| && |g[i].1| > 0 && AllConfident(g[i].1)
                          => (g[i].0, BookStatsOf(g[i].1)));
    assert KeysOf(r) == KeysOf(g);
    r
  }

  /** The recent predictions all carry a confidence when no prediction naming a book lacks
      one and all of them name a book. */
  lemma RecentConfident(preds: seq<PredictionRecord>, recent: seq<PredictionRecord>)
    requires forall i | 0 <= i < |preds| :: !LacksConfidence(preds[i])
    requires forall i | 0 <= i < |recent| :: recent[i] in preds && recent[i].bookId.Some?
    ensures AllConfident(recent)
  {
    forall i | 0 <= i < |recent|
      ensures recent[i].confidence.Some?
    {
      var k :| 0 <= k < |preds| && preds[k] == recent[i];
      assert !LacksConfidence(preds[k]);
    }
  }

  /** The response once the mean confidence is known and no prediction naming a book lacks
      a confidence: the per-book statistics and the recent predictions, which fail when one
      of the recent predictions names no book. */
  function Assemble(preds: seq<PredictionRecord>, average: real): (r: Result<PredictionStats, HttpError>)
    requires forall i | 0 <= i < |preds| :: !LacksConfidence(preds[i])
    ensures r.Failure? ==> r.error == MissingBookIdError
    ensures (forall i | 0 <= i < |preds| :: HasBookId(preds[i])) ==> r.Success?
    ensures r.Success? ==>
      && r.value.totalPredictions == |preds|
      && r.value.averageConfidence == average
      && r.value.predictionsByBook == PredictionsByBook(preds)
      && |r.value.recentPredictions| ==
           (if |preds| < RecentPredictionCount then |preds| else RecentPredictionCount)
      && forall i, j | 0 <= i < j < |r.value.recentPredictions| ::
           StrLe(r.value.recentPredictions[j].timestamp, r.value.recentPredictions[i].timestamp)
    ensures r.Failure? <==>
      exists i | 0 <= i < |Recent(preds, PredictionStamp, RecentPredictionCount)| ::
        Recent(preds, PredictionStamp, RecentPredictionCount)[i].bookId.None?
    ensures r.Success? ==>
      var recent := Recent(preds, PredictionStamp, RecentPredictionCount);
      && (forall i | 0 <= i < |recent| :: recent[i].bookId.Some?)
      && AllConfident(recent)
      && r.value.recentPredictions == RecentOf(recent)
  {
    var byBook := PredictionsByBook(preds);
    var recent := Recent(preds, PredictionStamp, RecentPredictionCount);
    if exists i | 0 <= i < |recent| :: recent[i].bookId.None? then Failure(MissingBookIdError)
    else
      RecentConfident(preds, recent);
      Success(PredictionStats(|preds|, average, byBook, RecentOf(recent)))
  }

  /** `get_ml_predictions()` given the logger's predictions. */
  function GetMlPredictions(preds: seq<PredictionRecord>): (r: Result<PredictionStats, HttpError>)
    ensures |preds| == 0 ==> r == Success(EmptyPredictionStats)
    ensures (exists i | 0 <= i < |preds| :: LacksConfidence(preds[i])) <==>
      r == Failure(MissingConfidenceError)
    ensures r.Failure? ==> r.error == MissingConfidenceError || r.error == MissingBookIdError
    ensures (forall i | 0 <= i < |preds| :: HasBookId(preds[i]) && preds[i].confidence.Some?)
      ==> r.Success?
    ensures r.Success? && |preds| > 0 ==>
      && r.value.totalPredictions == |preds|
      && r.value.predictionsByBook == PredictionsByBook(preds)
      && |r.value.recentPredictions| ==
           (if |preds| < RecentPredictionCount then |preds| else RecentPredictionCount)
      && forall i, j | 0 <= i < j < |r.value.recentPredictions| ::
           StrLe(r.value.recentPredictions[j].timestamp, r.value.recentPredictions[i].timestamp)
    ensures r.Success? && |ConfidencesOf(preds)| == 0 ==> r.value.averageConfidence == 0.0
    ensures r.Success? && |ConfidencesOf(preds)| > 0 ==>
      Min(ConfidencesOf(preds)) <= r.value.averageConfidence <= Max(ConfidencesOf(preds))
    ensures r.Success? && |ConfidencesOf(preds)| > 0 ==>
      SharesOut(r.value.averageConfidence, |ConfidencesOf(preds)|, Sum(ConfidencesOf(preds)))
    ensures |preds| > 0 && (forall i | 0 <= i < |preds| :: !LacksConfidence(preds[i])) ==>
      (r.Failure? <==>
        exists i | 0 <= i < |Recent(preds, PredictionStamp, RecentPredictionCount)| ::
          Recent(preds, PredictionStamp, RecentPredictionCount)[i].bookId.None?)
    ensures r.Success? && |preds| > 0 ==>
      var recent := Recent(preds, PredictionStamp, RecentPredictionCount);
      && (forall i | 0 <= i < |recent| :: recent[i].bookId.Some?)
      && AllConfident(recent)
      && r.value.recentPredictions == RecentOf(recent)
  {
    if |preds| == 0 then Success(EmptyPredictionStats)
    else if exists i | 0 <= i < |preds| :: LacksConfidence(preds[i]) then
      Failure(MissingConfidenceError)
    else
      var confidences := ConfidencesOf(preds);
      var average :=
        if |confidences| > 0 then
          MeanBetween(confidences);
          MeanTimesCount(confidences, |confidences|, Mean(confidences));
          Mean(confidences)
        else 0.0;
      Assemble(preds, average)
  }

  /** The `count` of each book entry. */
  function BookCounts(r: seq<(string, BookPredictionStats)>): (h: Histogram<string>)
    ensures KeysOf(h) == KeysOf(r)
  {
    seq(|r|, i requires 0 <= i < |r| => (r[i].0, r[i].1.count))
  }

  /** Every prediction that names a book is counted once, under its book: the per-book
      counts add up to the number of such predictions. */
  lemma BookCountsTotal(preds: seq<PredictionRecord>)
    requires forall i | 0 <= i < |preds| :: !LacksConfidence(preds[i])
    ensures TotalCount(BookCounts(PredictionsByBook(preds))) == |Filter(preds, HasBookId)|
  {
    var pairs := KeyedByBook(preds);
    var g := GroupBy(pairs);
    assert BookCounts(PredictionsByBook(preds)) == Sizes(g);
    TotalCountSizes(g);
    GroupByTotal(pairs);
  }

  /** The smallest and largest value of a book's group are each the value of a prediction
      logged for that book. */
  lemma GroupExtremes(preds: seq<PredictionRecord>, i: nat)
    requires forall k | 0 <= k < |preds| :: !LacksConfidence(preds[k])
    requires i < |GroupBy(KeyedByBook(preds))|
    ensures var (book, group) := GroupBy(KeyedByBook(preds))[i];
      && |group| > 0 && AllConfident(group)
      && (exists p | p in preds :: p.bookId == Some(book) && p.prediction == Min(PredictionValues(group)))
      && (exists p | p in preds :: p.bookId == Some(book) && p.prediction == Max(PredictionValues(group)))
      && (exists p | p in preds :: p.bookId == Some(book) && p.confidence == Some(Min(GroupConfidences(group))))
      && (exists p | p in preds :: p.bookId == Some(book) && p.confidence == Some(Max(GroupConfidences(group))))
  {
    var pairs := KeyedByBook(preds);
    var g := GroupBy(pairs);
    GroupBySpec(pairs);
    GroupsConfident(preds);
    var (book, group) := g[i];
    ValuesForMembers(pairs, book);
    var vs, cs := PredictionValues(group), GroupConfidences(group);
    var a :| 0 <= a < |group| && vs[a] == Min(vs);
    var b :| 0 <= b < |group| && vs[b] == Max(vs);
    var c :| 0 <= c < |group| && cs[c] == Min(cs);
    var d :| 0 <= d < |group| && cs[d] == Max(cs);
    assert (book, group[a]) in pairs && (book, group[b]) in pairs;
    assert (book, group[c]) in pairs && (book, group[d]) in pairs;
  }

  /** A book's average prediction and average confidence each lie between the smallest and
      the largest value logged for that book. */
  lemma BookAveragesBounded(preds: seq<PredictionRecord>, i: nat)
    requires forall k | 0 <= k < |preds| :: !LacksConfidence(preds[k])
    requires i < |PredictionsByBook(preds)|
    ensures var (book, b) := PredictionsByBook(preds)[i];
      && (exists p | p in preds :: p.bookId == Some(book) && p.prediction <= b.averagePrediction)
      && (exists p | p in preds :: p.bookId == Some(book) && b.averagePrediction <= p.prediction)
      && (exists p | p in preds ::
            p.bookId == Some(book) && p.confidence.Some? && p.confidence.value <= b.averageConfidence)
      && (exists p | p in preds ::
            p.bookId == Some(book) && p.confidence.Some? && b.averageConfidence <= p.confidence.value)
  {
    GroupExtremes(preds, i);
  }
}

=== FILE: analytics_records.dfy ===
/** The records the analytics handlers read from the logger (`get_api_calls()`,
    `get_errors()`, `get_ml_predictions()`), and the newest-first ordering they share.
    A field is optional exactly when the handlers test for it (`"k" in record`) or read it
    with `record.get(...)`; every other field is read as `record[k]` and is always present. */
module AnalyticsRecords {
  import opened Wrappers
  import opened Seqs
  import opened Sorting
  import opened Text

  /** One completed HTTP exchange. */
  datatype RequestRecord = RequestRecord(
    timestamp: Option<string>,
    httpMethod: string,
    path: Option<string>,
    statusCode: int,
    durationMs: Option<real>)

  /** One unrecovered failure while handling a request. */
  datatype ErrorRecord = ErrorRecord(
    timestamp: Option<string>,
    httpMethod: string,
    path: string,
    errorType: Option<string>,
    errorMessage: string)

  /** One prediction produced for a book. */
  datatype PredictionRecord = PredictionRecord(
    timestamp: Option<string>,
    bookId: Option<string>,
    prediction: real,
    confidence: Option<real>)

  /** `record.get("timestamp", "")` of a request. */
  function CallStamp(c: RequestRecord): string
  {
    c.timestamp.GetOr("")
  }

  /** `record.get("timestamp", "")` of a prediction. */
  function PredictionStamp(p: PredictionRecord): string
  {
    p.timestamp.GetOr("")
  }

  /** `a` may precede `b` in `sorted(records, key=stamp, reverse=True)`. */
  function NewerBy<T>(stamp: T -> string): (T, T) -> bool
  {
    (a, b) => StrLe(stamp(b), stamp(a))
  }

  /** Newest-first by a string timestamp is a total preorder. */
  lemma NewerByOrder<T(!new)>(stamp: T -> string)
    ensures TotalPreorder(NewerBy(stamp))
  {
    forall a, b
      ensures NewerBy(stamp)(a, b) || NewerBy(stamp)(b, a)
    {
      StrLeTotal(stamp(a), stamp(b));
    }
    forall a, b, c | NewerBy(stamp)(a, b) && NewerBy(stamp)(b, c)
      ensures NewerBy(stamp)(a, c)
    {
      StrLeTransitive(stamp(c), stamp(b), stamp(a));
    }
  }

  /** `sorted(records, key=stamp, reverse=True)[:n]`: the `n` newest records, newest first,
      records with equal timestamps in input order. */
  function Recent<T(==,!new)>(records: seq<T>, stamp: T -> string, n: nat): (r: seq<T>)
    ensures |r| == if n < |records| then n else |records|
    ensures forall i | 0 <= i < |r| :: r[i] in records
    ensures multiset(r) <= multiset(records)
    ensures forall i, j | 0 <= i < j < |r| :: StrLe(stamp(r[j]), stamp(r[i]))
    ensures forall i, j | 0 <= i < |r| && 0 <= j < |records| && records[j] !in r ::
      StrLe(stamp(records[j]), stamp(r[i]))
  {
    NewerByOrder(stamp);
    var sorted := SortBy(records, NewerBy(stamp));
    SortByMembers(records, NewerBy(stamp));
    var k := if n < |records| then n else |records|;
    PrefixDominates(records, NewerBy(stamp), k);
    var r := PyPrefix(sorted, n);
    assert r == sorted[..k];
    assert forall i | 0 <= i < k :: r[i] == sorted[i];
    PrefixMultiset(sorted, k);
    r
  }
}

=== FILE: book_categories.dfy ===
/** Category listing in its two variants: `GetAllCategoriesUseCase.execute` (distinct
    categories in order of first occurrence) and `get_all_categories_usecase` (error on a
    missing column, nulls dropped, distinct values sorted). */
module BookCategories {
  import opened Wrappers
  import opened Seqs
  import opened Sorting
  import opened Text
  import opened Catalogue

  /** `GetAllCategoriesUseCase.execute()`: each category once, first-seen order. */
  function GetAllCategories(books: seq<Book>): (r: seq<string>)
    ensures |r| <= |books|
    ensures forall i, j | 0 <= i < j < |r| :: r[i] != r[j]
    ensures forall i | 0 <= i < |r| :: exists k | 0 <= k < |books| :: books[k].category == r[i]
    ensures forall k | 0 <= k < |books| :: books[k].category in r
  {
    var cs := CategoriesOf(books);
    assert forall i | 0 <= i < |Distinct(cs)| :: Distinct(cs)[i] in cs;
    Distinct(cs)
  }

  /** Categories are listed in the order in which they first occur among the books. */
  lemma CategoriesFirstSeenOrder(books: seq<Book>)
    ensures forall i, j | 0 <= i < j < |GetAllCategories(books)| ::
      FirstIndex(CategoriesOf(books), GetAllCategories(books)[i])
        < FirstIndex(CategoriesOf(books), GetAllCategories(books)[j])
  {
    DistinctFirstSeenOrder(CategoriesOf(books));
  }

  /** The error raised when the CSV has no `category` column. */
  const MissingCategoryColumn := HttpError(500, "Coluna 'category' ausente no CSV.")

  /** The `{"categories": [...]}` response. */
  datatype CategoriesResponse = CategoriesResponse(categories: seq<string>)

  /** Python's string `<=` is a total preorder. */
  lemma StringOrder()
    ensures TotalPreorder(StrLe)
  {
    forall a, b
      ensures StrLe(a, b) || StrLe(b, a)
    {
      StrLeTotal(a, b);
    }
    forall a, b, c | StrLe(a, b) && StrLe(b, c)
      ensures StrLe(a, c)
    {
      StrLeTransitive(a, b, c);
    }
  }

  /** `get_all_categories_usecase()` given the CSV's category column (None when the column
      is missing; a cell is None when it is null). */
  function GetAllCategoriesSorted(column: Option<seq<Option<string>>>)
    : (r: Result<CategoriesResponse, HttpError>)
    ensures column.None? <==> r.Failure?
    ensures r.Failure? ==> r.error == MissingCategoryColumn
    ensures r.Success? ==>
      var cs := r.value.categories;
      && (forall i | 0 <= i < |cs| :: Some(cs[i]) in column.value)
      && (forall k | 0 <= k < |column.value| && column.value[k].Some? :: column.value[k].value in cs)
      && (forall i, j | 0 <= i < j < |cs| :: StrLe(cs[i], cs[j]) && cs[i] != cs[j])
  {
    if column.None? then Failure(MissingCategoryColumn)
    else
      StringOrder();
      ColumnSorted(column.value);
      Success(CategoriesResponse(SortBy(Distinct(Somes(column.value)), StrLe)))
  }

  /** The sorted distinct non-null cells of a column are strictly ascending and are exactly
      its non-null cells. */
  lemma ColumnSorted(col: seq<Option<string>>)
    ensures TotalPreorder(StrLe)
    ensures var cs := SortBy(Distinct(Somes(col)), StrLe);
      && (forall i | 0 <= i < |cs| :: Some(cs[i]) in col)
      && (forall k | 0 <= k < |col| && col[k].Some? :: col[k].value in cs)
      && (forall i, j | 0 <= i < j < |cs| :: StrLe(cs[i], cs[j]) && cs[i] != cs[j])
  {
    StringOrder();
    var present := Somes(col);
    var unique := Distinct(present);
    var cs := SortBy(unique, StrLe);
    SortedUnique(unique);
    forall i | 0 <= i < |cs|
      ensures Some(cs[i]) in col
    {
      assert cs[i] in unique;
      var m :| 0 <= m < |unique| && unique[m] == cs[i];
      assert unique[m] in present;
    }
    forall k | 0 <= k < |col| && col[k].Some?
      ensures col[k].value in cs
    {
      assert col[k].value in present;
      var m :| 0 <= m < |present| && present[m] == col[k].value;
      assert present[m] in unique;
      var q :| 0 <= q < |unique| && unique[q] == col[k].value;
      assert unique[q] in cs;
    }
  }

  /** Sorting a duplicate-free list of strings gives a strictly ascending list of the same
      strings. */
  lemma SortedUnique(unique: seq<string>)
    requires forall x, y | 0 <= x < y < |unique| :: unique[x] != unique[y]
    ensures TotalPreorder(StrLe)
    ensures var sorted := SortBy(unique, StrLe);
      && (forall i | 0 <= i < |sorted| :: sorted[i] in unique)
      && (forall i | 0 <= i < |unique| :: unique[i] in sorted)
      && (forall i, j | 0 <= i < j < |sorted| :: StrLe(sorted[i], sorted[j]) && sorted[i] != sorted[j])
  {
    StringOrder();
    SortByDistinct(unique, StrLe);
  }

  /** When no category is null, both variants list the same categories, each once. */
  lemma CategoryVariantsAgree(books: seq<Book>)
    ensures var column := seq(|books|, i requires 0 <= i < |books| => Some(books[i].category));
      GetAllCategoriesSorted(Some(column)).Success?
      && multiset(GetAllCategoriesSorted(Some(column)).value.categories)
         == multiset(GetAllCategories(books))
  {
    var column := seq(|books|, i requires 0 <= i < |books| => Some(books[i].category));
    SomesOfPresent(books, column);
  }

  /** Dropping nulls from a column without nulls recovers the categories. */
  lemma {:induction false} SomesOfPresent(books: seq<Book>, column: seq<Option<string>>)
    requires |column| == |books|
    requires forall i | 0 <= i < |books| :: column[i] == Some(books[i].category)
    ensures Somes(column) == CategoriesOf(books)
  {
    if |books| > 0 {
      SomesOfPresent(books[1..], column[1..]);
      assert CategoriesOf(books) == [books[0].category] + CategoriesOf(books[1..]);
    }
  }
}

=== FILE: book_lookup.dfy ===
/** Lookup of a book by id: `GetBookByIdUseCase.execute` over Book objects and
    `get_book_by_id_usecase` over dict rows; both return the first match or None. */
module BookLookup {
  import opened Wrappers
  import opened Catalogue

  /** `GetBookByIdUseCase.execute(book_id)`. */
  function GetBookById(books: seq<Book>, bookId: string): (r: Option<Book>)
    ensures r.None? <==> forall i | 0 <= i < |books| :: books[i].id != bookId
    ensures r.Some? ==> r.value.id == bookId
    ensures r.Some? ==> exists i | 0 <= i < |books| ::
      books[i] == r.value && forall j | 0 <= j < i :: books[j].id != bookId
  {
    if |books| == 0 then None
    else if books[0].id == bookId then Some(books[0])
    else
      var r := GetBookById(books[1..], bookId);
      assert forall i | 1 <= i < |books| :: books[i] == books[1..][i - 1];
      assert r.Some? ==> exists i | 0 <= i < |books| ::
        books[i] == r.value && forall j | 0 <= j < i :: books[j].id != bookId
      by {
        if r.Some? {
          var k :| 0 <= k < |books[1..]| && books[1..][k] == r.value
            && forall j | 0 <= j < k :: books[1..][j].id != bookId;
          assert books[k + 1] == r.value;
        }
      }
      r
  }

  /** Books after the first match do not affect the result. */
  lemma {:induction false} LookupIgnoresLater(books: seq<Book>, later: seq<Book>, bookId: string)
    requires GetBookById(books, bookId).Some?
    ensures GetBookById(books + later, bookId) == GetBookById(books, bookId)
  {
    if books[0].id != bookId {
      assert (books + later)[1..] == books[1..] + later;
      LookupIgnoresLater(books[1..], later, bookId);
    }
  }

  /** `get_book_by_id_usecase(book_id)` over dict rows: walks the rows and returns the first
      one with the id. */
  method GetBookByIdRows(rows: seq<Book>, bookId: string) returns (r: Option<Book>)
    ensures r == GetBookById(rows, bookId)
  {
    for i := 0 to |rows|
      invariant forall j | 0 <= j < i :: rows[j].id != bookId
    {
      if rows[i].id == bookId {
        return Some(rows[i]);
      }
    }
    return None;
  }
}

=== FILE: book_price.dfy ===
/** Inclusive price-range filtering in its three variants: `GetByPriceUseCase.execute` and
    `get_by_price_usecase` (optional bounds, skip-with-`continue` loop) and the book-api
    `get_by_price_usecase` (a range comprehension with query defaults 0 and 1000). */
module BookPrice {
  import opened Wrappers
  import opened Seqs
  import opened Catalogue

  /** Neither `price < min_price` (when a minimum is given) nor `price > max_price`
      (when a maximum is given). */
  predicate InPriceRange(b: Book, minPrice: Option<real>, maxPrice: Option<real>)
  {
    (minPrice.None? || minPrice.value <= b.price) && (maxPrice.None? || b.price <= maxPrice.value)
  }

  /** `GetByPriceUseCase.execute(min_price, max_price)` over the repository's books. */
  function GetByPrice(books: seq<Book>, minPrice: Option<real>, maxPrice: Option<real>): (r: seq<Book>)
    ensures IsSubsequence(r, books)
    ensures forall i | 0 <= i < |r| ::
      (minPrice.Some? ==> minPrice.value <= r[i].price)
      && (maxPrice.Some? ==> r[i].price <= maxPrice.value)
    ensures forall i | 0 <= i < |books| && InPriceRange(books[i], minPrice, maxPrice) :: books[i] in r
    ensures forall b :: multiset(r)[b] == if InPriceRange(b, minPrice, maxPrice) then multiset(books)[b] else 0
    ensures minPrice.None? && maxPrice.None? ==> r == books
    ensures minPrice.Some? && maxPrice.Some? && minPrice.value > maxPrice.value ==> r == []
  {
    var p := (b: Book) => InPriceRange(b, minPrice, maxPrice);
    FilterIsSubsequence(books, p);
    FilterKeepsAll(books, p);
    FilterMultiset(books, p);
    if minPrice.None? && maxPrice.None? then
      FilterAll(books, p);
      Filter(books, p)
    else
      Filter(books, p)
  }

  /** `get_by_price_usecase(min_price, max_price)` over dict rows: walks the rows, skips one
      below the minimum or above the maximum and appends the rest. */
  method GetByPriceRows(rows: seq<Book>, minPrice: Option<real>, maxPrice: Option<real>)
    returns (filtered: seq<Book>)
    ensures filtered == GetByPrice(rows, minPrice, maxPrice)
  {
    ghost var p := (b: Book) => InPriceRange(b, minPrice, maxPrice);
    filtered := [];
    for i := 0 to |rows|
      invariant filtered == Filter(rows[..i], p)
    {
      FilterConcat(rows[..i], [rows[i]], p);
      assert rows[..i + 1] == rows[..i] + [rows[i]];
      if minPrice.Some? && rows[i].price < minPrice.value {
        continue;
      }
      if maxPrice.Some? && rows[i].price > maxPrice.value {
        continue;
      }
      filtered := filtered + [rows[i]];
    }
    assert rows[..|rows|] == rows;
  }

  /** The book-api query defaults. */
  const DefaultMinPrice: real := 0.0
  const DefaultMaxPrice: real := 1000.0

  /** The book-api `get_by_price_usecase(min, max)`: keeps `min <= price <= max`. */
  function GetByPriceRange(books: seq<Book>, lo: real, hi: real): (r: seq<Book>)
    ensures IsSubsequence(r, books)
    ensures forall i | 0 <= i < |r| :: lo <= r[i].price <= hi
    ensures forall i | 0 <= i < |books| && lo <= books[i].price <= hi :: books[i] in r
    ensures forall b :: multiset(r)[b] == if lo <= b.price <= hi then multiset(books)[b] else 0
    ensures lo > hi ==> r == []
  {
    var p := (b: Book) => lo <= b.price <= hi;
    FilterIsSubsequence(books, p);
    FilterKeepsAll(books, p);
    FilterMultiset(books, p);
    Filter(books, p)
  }

  /** With the defaults, a book priced below 0 or above 1000 is never returned. */
  lemma DefaultRangeExcludes(books: seq<Book>, b: Book)
    requires b.price < DefaultMinPrice || b.price > DefaultMaxPrice
    ensures b !in GetByPriceRange(books, DefaultMinPrice, DefaultMaxPrice)
  {
    var r := GetByPriceRange(books, DefaultMinPrice, DefaultMaxPrice);
    assert forall i | 0 <= i < |r| :: r[i] != b;
  }

  /** The book-api range filter is the optional-bounds filter with both bounds given. */
  lemma PriceVariantsAgree(books: seq<Book>, lo: real, hi: real)
    ensures GetByPriceRange(books, lo, hi) == GetByPrice(books, Some(lo), Some(hi))
  {
    FilterCongruent(books, (b: Book) => lo <= b.price <= hi,
                           (b: Book) => InPriceRange(b, Some(lo), Some(hi)));
  }
}

=== FILE: book_rank.dfy ===
/** Top-rated books: a stable sort by rating, highest first, then a limit. Two variants:
    `GetTopRatedBooksUseCase.execute` (only a positive limit truncates) and
    `get_top_rated_books_usecase` (any non-zero limit is a Python slice `[:limit]`). */
module BookRank {
  import opened Seqs
  import opened Sorting
  import opened Catalogue

  /** `a` may precede `b` in `sorted(books, key=rating, reverse=True)`. */
  predicate RatingAtLeast(a: Book, b: Book)
  {
    a.rating >= b.rating
  }

  /** Ranking by rating is a total preorder. */
  lemma RatingOrder()
    ensures TotalPreorder(RatingAtLeast)
  {
  }

  /** All books, highest rating first, equal ratings in input order. */
  function SortByRating(books: seq<Book>): (r: seq<Book>)
    ensures |r| == |books|
    ensures multiset(r) == multiset(books)
    ensures forall i, j | 0 <= i < j < |r| :: r[i].rating >= r[j].rating
  {
    RatingOrder();
    SortBy(books, RatingAtLeast)
  }

  /** Books with equal rating keep their input order: for every rating, the books with that
      rating appear in the sorted list exactly as they appear in the input. */
  lemma SortByRatingStable(books: seq<Book>)
    ensures forall b :: Ties(SortByRating(books), b, RatingAtLeast) == Ties(books, b, RatingAtLeast)
  {
    RatingOrder();
    SortByStable(books, RatingAtLeast);
  }

  /** `GetTopRatedBooksUseCase.execute(limit)`. */
  function GetTopRatedBooks(books: seq<Book>, limit: int): (r: seq<Book>)
    ensures |r| <= |books| && r == SortByRating(books)[..|r|]
    ensures limit > 0 ==> |r| == if limit < |books| then limit else |books|
    ensures limit <= 0 ==> multiset(r) == multiset(books)
    ensures forall i, j | 0 <= i < j < |r| :: r[i].rating >= r[j].rating
    ensures forall i, j | 0 <= i < |r| <= j < |books| :: r[i].rating >= SortByRating(books)[j].rating
  {
    var sorted := SortByRating(books);
    if limit > 0 then PyPrefix(sorted, limit) else sorted
  }

  /** `get_top_rated_books_usecase(limit)`. */
  function GetTopRatedBooksSliced(books: seq<Book>, limit: int): (r: seq<Book>)
    ensures |r| <= |books| && r == SortByRating(books)[..|r|]
    ensures limit == 0 ==> multiset(r) == multiset(books)
    ensures limit > 0 ==> |r| == if limit < |books| then limit else |books|
    ensures limit < 0 ==> |r| == if |books| + limit > 0 then |books| + limit else 0
    ensures forall i, j | 0 <= i < |r| <= j < |books| :: r[i].rating >= SortByRating(books)[j].rating
  {
    var sorted := SortByRating(books);
    if limit != 0 then PyPrefix(sorted, limit) else sorted
  }

  /** The variants agree on non-negative limits; a negative limit returns every book from
      the class variant but drops books in the function variant. */
  lemma TopRatedVariants(books: seq<Book>, limit: int)
    ensures limit >= 0 ==> GetTopRatedBooks(books, limit) == GetTopRatedBooksSliced(books, limit)
    ensures limit < 0 && |books| > 0 ==>
      |GetTopRatedBooksSliced(books, limit)| < |GetTopRatedBooks(books, limit)| == |books|
  {
    if limit < 0 {
      assert |GetTopRatedBooks(books, limit)| == |multiset(books)|;
    }
  }
}

=== FILE: book_search.dfy ===
/** Case-insensitive substring search over titles and categories, in its two variants:
    `SearchByTitleOrCategoryUseCase.execute` (optional queries, a falsy query means "no
    filter") and `search_by_title_or_category_usecase` (queries default to ""). */
module BookSearch {
  import opened Wrappers
  import opened Seqs
  import opened Text
  import opened Catalogue

  /** Python truthiness of an optional string: present and non-empty. */
  predicate Truthy(q: Option<string>)
  {
    q.Some? && q.value != ""
  }

  /** `query.lower() in book.title.lower()`. */
  predicate TitleMatches(b: Book, query: string)
  {
    Contains(Lower(b.title), Lower(query))
  }

  /** `query.lower() in book.category.lower()`. */
  predicate CategoryMatches(b: Book, query: string)
  {
    Contains(Lower(b.category), Lower(query))
  }

  /** The filter the use case applies for a pair of optional queries. */
  function QueryFilter(title: Option<string>, category: Option<string>): Book -> bool
  {
    b => (!Truthy(title) || TitleMatches(b, title.value))
      && (!Truthy(category) || CategoryMatches(b, category.value))
  }

  /** `SearchByTitleOrCategoryUseCase.execute(title, category)` over the repository's books. */
  function SearchByTitleOrCategory(books: seq<Book>, title: Option<string>, category: Option<string>)
    : (r: seq<Book>)
    ensures IsSubsequence(r, books)
    ensures !Truthy(title) && !Truthy(category) ==> r == books
    ensures forall i | 0 <= i < |r| ::
      (Truthy(title) ==> TitleMatches(r[i], title.value))
      && (Truthy(category) ==> CategoryMatches(r[i], category.value))
    ensures forall i | 0 <= i < |books| ::
      (Truthy(title) ==> TitleMatches(books[i], title.value))
      && (Truthy(category) ==> CategoryMatches(books[i], category.value))
      ==> books[i] in r
  {
    var p := QueryFilter(title, category);
    FilterIsSubsequence(books, p);
    FilterKeepsAll(books, p);
    if Truthy(title) && Truthy(category) then
      FilterCongruent(books, p, b => TitleMatches(b, title.value) && CategoryMatches(b, category.value));
      Filter(books, b => TitleMatches(b, title.value) && CategoryMatches(b, category.value))
    else if Truthy(title) then
      FilterCongruent(books, p, b => TitleMatches(b, title.value));
      Filter(books, b => TitleMatches(b, title.value))
    else if Truthy(category) then
      FilterCongruent(books, p, b => CategoryMatches(b, category.value));
      Filter(books, b => CategoryMatches(b, category.value))
    else
      FilterAll(books, p);
      books
  }

  /** Adding a category query can only narrow a title search: the result with both
      queries is a subsequence of the title-only result. */
  lemma BothNarrowsTitleOnly(books: seq<Book>, title: string, category: string)
    ensures IsSubsequence(SearchByTitleOrCategory(books, Some(title), Some(category)),
                          SearchByTitleOrCategory(books, Some(title), None))
  {
    var t := QueryFilter(Some(title), None);
    var c := QueryFilter(None, Some(category));
    var both := QueryFilter(Some(title), Some(category));
    var r := SearchByTitleOrCategory(books, Some(title), Some(category));
    var rt := SearchByTitleOrCategory(books, Some(title), None);
    SearchIsFilter(books, Some(title), Some(category));
    SearchIsFilter(books, Some(title), None);
    FilterFilter(books, t, c, both);
    FilterIsSubsequence(Filter(books, t), c);
  }

  /** The search keeps exactly the books its query filter accepts. */
  lemma SearchIsFilter(books: seq<Book>, title: Option<string>, category: Option<string>)
    ensures SearchByTitleOrCategory(books, title, category) == Filter(books, QueryFilter(title, category))
  {
    var p := QueryFilter(title, category);
    if Truthy(title) && Truthy(category) {
      FilterCongruent(books, p, b => TitleMatches(b, title.value) && CategoryMatches(b, category.value));
    } else if Truthy(title) {
      FilterCongruent(books, p, b => TitleMatches(b, title.value));
    } else if Truthy(category) {
      FilterCongruent(books, p, b => CategoryMatches(b, category.value));
    } else {
      FilterAll(books, p);
    }
  }

  /** The search ignores case: queries that lower-case alike give the same books. */
  lemma SearchIgnoresCase(books: seq<Book>, t1: string, t2: string, c1: string, c2: string)
    requires Lower(t1) == Lower(t2) && Lower(c1) == Lower(c2)
    ensures SearchByTitleOrCategory(books, Some(t1), Some(c1))
         == SearchByTitleOrCategory(books, Some(t2), Some(c2))
  {
    SearchIsFilter(books, Some(t1), Some(c1));
    SearchIsFilter(books, Some(t2), Some(c2));
    assert |t1| == |Lower(t1)| == |t2|;
    assert |c1| == |Lower(c1)| == |c2|;
    FilterCongruent(books, QueryFilter(Some(t1), Some(c1)), QueryFilter(Some(t2), Some(c2)));
  }

  /** `search_by_title_or_category_usecase(title, category)`: both queries are lower-cased
      first and an empty query accepts every book. */
  function SearchConjunctive(books: seq<Book>, title: string, category: string): (r: seq<Book>)
    ensures IsSubsequence(r, books)
    ensures forall i | 0 <= i < |r| ::
      Contains(Lower(r[i].title), Lower(title)) && Contains(Lower(r[i].category), Lower(category))
    ensures forall i | 0 <= i < |books| ::
      Contains(Lower(books[i].title), Lower(title)) && Contains(Lower(books[i].category), Lower(category))
      ==> books[i] in r
  {
    var t := Lower(title);
    var c := Lower(category);
    var p := (b: Book) => (if t != "" then Contains(Lower(b.title), t) else true)
                       && (if c != "" then Contains(Lower(b.category), c) else true);
    FilterIsSubsequence(books, p);
    FilterKeepsAll(books, p);
    Filter(books, p)
  }

  /** With the default empty queries every book is returned. */
  lemma SearchConjunctiveDefaults(books: seq<Book>)
    ensures SearchConjunctive(books, "", "") == books
  {
    var p := (b: Book) => (if Lower("") != "" then Contains(Lower(b.title), Lower("")) else true)
                       && (if Lower("") != "" then Contains(Lower(b.category), Lower("")) else true);
    FilterAll(books, p);
  }

  /** The two variants agree: the function variant with `""` behaves like the class variant
      with a falsy query, and with non-empty queries both keep the books matching both. */
  lemma SearchVariantsAgree(books: seq<Book>, title: string, category: string)
    ensures SearchByTitleOrCategory(books, Some(title), Some(category))
         == SearchConjunctive(books, title, category)
    ensures SearchByTitleOrCategory(books, None, None) == SearchConjunctive(books, "", "")
  {
    SearchIsFilter(books, Some(title), Some(category));
    var t := Lower(title);
    var c := Lower(category);
    var p := (b: Book) => (if t != "" then Contains(Lower(b.title), t) else true)
                       && (if c != "" then Contains(Lower(b.category), c) else true);
    assert |t| == |title| && |c| == |category|;
    FilterCongruent(books, QueryFilter(Some(title), Some(category)), p);
    SearchConjunctiveDefaults(books);
  }
}

=== FILE: book_stats.dfy ===
/** Catalogue statistics: per-category counts (`GetCategoriesStatsUseCase.execute` and
    its function twin `get_categories_stats_usecase`) and the overview
    (`GetStatsOverviewUseCase.execute`). */
module BookStats {
  import opened Seqs
  import opened Grouping
  import opened Catalogue
  import BookCategories

  /** `[{'category': c, 'count': n}, ...]` as a histogram: entry `(c, n)` is one dict. */
  function CategoryStats(books: seq<Book>): (r: Histogram<string>)
    ensures KeysOf(r) == BookCategories.GetAllCategories(books)
    ensures forall i | 0 <= i < |r| :: r[i].1 == multiset(CategoriesOf(books))[r[i].0] >= 1
    ensures TotalCount(r) == |books|
  {
    TallySpec(CategoriesOf(books));
    Tally(CategoriesOf(books))
  }

  /** The count of a category is the number of books in that category. */
  lemma CategoryCountIsBookCount(books: seq<Book>, i: nat)
    requires i < |CategoryStats(books)|
    ensures CategoryStats(books)[i].1
         == |Filter(books, (b: Book) => b.category == CategoryStats(books)[i].0)|
  {
    var c := CategoryStats(books)[i].0;
    FilterCountsCategory(books, c);
  }

  /** Filtering the books by category counts the category's occurrences. */
  lemma {:induction false} FilterCountsCategory(books: seq<Book>, c: string)
    ensures |Filter(books, (b: Book) => b.category == c)| == multiset(CategoriesOf(books))[c]
  {
    if |books| > 0 {
      FilterCountsCategory(books[1..], c);
      assert CategoriesOf(books) == [books[0].category] + CategoriesOf(books[1..]);
    }
  }

  /** `{'total_books', 'average_price', 'average_rating'}`, averages before rounding. */
  datatype Overview = Overview(totalBooks: nat, averagePrice: real, averageRating: real)

  /** `GetStatsOverviewUseCase.execute()`. */
  function GetOverview(books: seq<Book>): (r: Overview)
    ensures |books| == 0 ==> r == Overview(0, 0.0, 0.0)
    ensures r.totalBooks == |books|
    ensures |books| > 0 ==> Min(PricesOf(books)) <= r.averagePrice <= Max(PricesOf(books))
    ensures |books| > 0 ==> Min(RatingsOf(books)) <= r.averageRating <= Max(RatingsOf(books))
  {
    var prices, ratings := PricesOf(books), RatingsOf(books);
    if |books| == 0 then
      assert prices == [] && ratings == [];
      Overview(0, 0.0, 0.0)
    else
      MeanBetween(prices);
      MeanBetween(ratings);
      Overview(|books|, Mean(prices), Mean(ratings))
  }

  /** The averages are the totals shared out over the books: average times count gives
      back the sum of the prices and of the ratings. */
  lemma OverviewTotals(books: seq<Book>)
    requires |books| > 0
    ensures var o := GetOverview(books);
      && SharesOut(o.averagePrice, o.totalBooks, Sum(PricesOf(books)))
      && SharesOut(o.averageRating, o.totalBooks, Sum(RatingsOf(books)))
  {
    var o := GetOverview(books);
    MeanTimesCount(PricesOf(books), o.totalBooks, o.averagePrice);
    MeanTimesCount(RatingsOf(books), o.totalBooks, o.averageRating);
  }
}

=== FILE: catalogue.dfy ===
/** The book record of the catalogue, as the repository loads it from the scraped CSV. */
module Catalogue {
  import opened Wrappers

  /** One catalogue entry; `image` is absent when the CSV cell is empty. Dict-shaped rows
      (pandas' `to_dict('records')`) carry the same columns and are modelled by this record. */
  datatype Book = Book(
    id: string,
    title: string,
    price: real,
    rating: int,
    availability: string,
    category: string,
    image: Option<string>)

  /** The category column of a list of books, in order. */
  function CategoriesOf(books: seq<Book>): (cs: seq<string>)
    ensures |cs| == |books|
    ensures forall i | 0 <= i < |books| :: cs[i] == books[i].category
  {
    seq(|books|, i requires 0 <= i < |books| => books[i].category)
  }

  /** The price column of a list of books, in order. */
  function PricesOf(books: seq<Book>): (ps: seq<real>)
    ensures |ps| == |books|
    ensures forall i | 0 <= i < |books| :: ps[i] == books[i].price
  {
    seq(|books|, i requires 0 <= i < |books| => books[i].price)
  }

  /** The rating column of a list of books, as reals, in order. */
  function RatingsOf(books: seq<Book>): (rs: seq<real>)
    ensures |rs| == |books|
    ensures forall i | 0 <= i < |books| :: rs[i] == books[i].rating as real
  {
    seq(|books|, i requires 0 <= i < |books| => books[i].rating as real)
  }
}

=== FILE: grouping.dfy ===
/** Grouping and counting by key with Python dict insertion order: `defaultdict(list)`
    filled by `append`, and `Counter` / `d[k] = d.get(k, 0) + 1`. A dict is a sequence of
    entries whose keys are distinct, listed in the order the keys were first inserted. */
module Grouping {
  import opened Seqs
  import opened Sorting

  /** The keys of a sequence of pairs (or of dict entries), in order. */
  function KeysOf<K, V>(pairs: seq<(K, V)>): (ks: seq<K>)
    ensures |ks| == |pairs|
    ensures forall i | 0 <= i < |pairs| :: ks[i] == pairs[i].0
  {
    seq(|pairs|, i requires 0 <= i < |pairs| => pairs[i].0)
  }

  /** The position of the first `k` in `ks`, or `|ks|` when `k` is absent. */
  function IndexOf<K(==)>(ks: seq<K>, k: K): (i: nat)
    ensures i <= |ks|
    ensures i < |ks| ==> ks[i] == k
    ensures forall j | 0 <= j < i :: ks[j] != k
  {
    if |ks| == 0 then 0
    else if ks[0] == k then 0
    else 1 + IndexOf(ks[1..], k)
  }

  /** The values paired with key `k`, in their order in `pairs`. */
  function ValuesFor<K(==), V>(pairs: seq<(K, V)>, k: K): seq<V>
  {
    if |pairs| == 0 then []
    else
      var last := pairs[|pairs| - 1];
      ValuesFor(pairs[..|pairs| - 1], k) + (if last.0 == k then [last.1] else [])
  }

  /** The values for `k` are exactly the values paired with `k`. */
  lemma {:induction false} ValuesForMembers<K, V>(pairs: seq<(K, V)>, k: K)
    ensures forall i | 0 <= i < |ValuesFor(pairs, k)| :: (k, ValuesFor(pairs, k)[i]) in pairs
    ensures forall j | 0 <= j < |pairs| && pairs[j].0 == k :: pairs[j].1 in ValuesFor(pairs, k)
  {
    if |pairs| > 0 {
      var n := |pairs| - 1;
      ValuesForMembers(pairs[..n], k);
      assert pairs == pairs[..n] + [pairs[n]];
    }
  }

  /** `groups[k].append(v)` on a `defaultdict(list)`. */
  function Append<K(==), V>(g: seq<(K, seq<V>)>, k: K, v: V): seq<(K, seq<V>)>
  {
    var i := IndexOf(KeysOf(g), k);
    if i < |g| then g[i := (k, g[i].1 + [v])] else g + [(k, [v])]
  }

  /** Groups the values by key, keys in first-seen order. */
  function GroupBy<K(==), V>(pairs: seq<(K, V)>): (g: seq<(K, seq<V>)>)
    ensures |g| <= |pairs|
    ensures forall i | 0 <= i < |g| :: |g[i].1| > 0
  {
    if |pairs| == 0 then []
    else
      var last := pairs[|pairs| - 1];
      Append(GroupBy(pairs[..|pairs| - 1]), last.0, last.1)
  }

  /** The total number of grouped values. */
  function TotalSize<K, V>(g: seq<(K, seq<V>)>): nat
  {
    if |g| == 0 then 0 else |g[0].1| + TotalSize(g[1..])
  }

  /** Appending one value to one group grows the total by one. */
  lemma {:induction false} TotalSizeGrow<K, V>(g: seq<(K, seq<V>)>, i: nat, k: K, v: V)
    requires i < |g|
    ensures TotalSize(g[i := (k, g[i].1 + [v])]) == TotalSize(g) + 1
  {
    if i > 0 {
      assert g[i := (k, g[i].1 + [v])][1..] == g[1..][i - 1 := (k, g[i].1 + [v])];
      TotalSizeGrow(g[1..], i - 1, k, v);
    }
  }

  /** Adding a new group of one value grows the total by one. */
  lemma {:induction false} TotalSizeExtend<K, V>(g: seq<(K, seq<V>)>, k: K, v: V)
    ensures TotalSize(g + [(k, [v])]) == TotalSize(g) + 1
  {
    if |g| > 0 {
      assert (g + [(k, [v])])[1..] == g[1..] + [(k, [v])];
      TotalSizeExtend(g[1..], k, v);
    }
  }

  /** Every value lands in exactly one group. */
  lemma {:induction false} GroupByTotal<K, V>(pairs: seq<(K, V)>)
    ensures TotalSize(GroupBy(pairs)) == |pairs|
  {
    if |pairs| > 0 {
      var n := |pairs| - 1;
      var g := GroupBy(pairs[..n]);
      GroupByTotal(pairs[..n]);
      var i := IndexOf(KeysOf(g), pairs[n].0);
      if i < |g| {
        TotalSizeGrow(g, i, pairs[n].0, pairs[n].1);
      } else {
        TotalSizeExtend(g, pairs[n].0, pairs[n].1);
      }
    }
  }

  /** The keys of the pairs' prefix are the prefix of their keys. */
  lemma KeysOfPrefix<K, V>(pairs: seq<(K, V)>, n: nat)
    requires n <= |pairs|
    ensures KeysOf(pairs[..n]) == KeysOf(pairs)[..n]
  {
  }

  /** How `Append` changes a grouping whose keys are distinct. */
  lemma AppendEntries<K, V>(g: seq<(K, seq<V>)>, k: K, v: V)
    requires forall a, b | 0 <= a < b < |g| :: g[a].0 != g[b].0
    ensures k !in KeysOf(g) ==> Append(g, k, v) == g + [(k, [v])]
    ensures k in KeysOf(g) ==> |Append(g, k, v)| == |g|
    ensures k in KeysOf(g) ==> forall j | 0 <= j < |g| ::
      Append(g, k, v)[j] == if g[j].0 == k then (k, g[j].1 + [v]) else g[j]
  {
    var ks := KeysOf(g);
    var i := IndexOf(ks, k);
    if k in ks {
      assert i < |g|;
      forall j | 0 <= j < |g| && g[j].0 == k
        ensures j == i
      {
        assert ks[j] == k && ks[i] == k;
      }
    }
  }

  /** A key that never occurs has no values. */
  lemma {:induction false} ValuesForAbsent<K, V>(pairs: seq<(K, V)>, k: K)
    requires k !in KeysOf(pairs)
    ensures ValuesFor(pairs, k) == []
  {
    if |pairs| > 0 {
      var n := |pairs| - 1;
      KeysOfPrefix(pairs, n);
      assert KeysOf(pairs) == KeysOf(pairs[..n]) + [pairs[n].0];
      ValuesForAbsent(pairs[..n], k);
    }
  }

  /** How `Append` changes the keys of a grouping whose keys are distinct. */
  lemma KeysOfAppend<K, V>(g: seq<(K, seq<V>)>, k: K, v: V)
    requires forall a, b | 0 <= a < b < |g| :: g[a].0 != g[b].0
    ensures KeysOf(Append(g, k, v)) == if k in KeysOf(g) then KeysOf(g) else KeysOf(g) + [k]
  {
    AppendEntries(g, k, v);
    var r := Append(g, k, v);
    if k in KeysOf(g) {
      forall j | 0 <= j < |r|
        ensures KeysOf(r)[j] == KeysOf(g)[j]
      {
      }
    } else {
      forall j | 0 <= j < |r|
        ensures KeysOf(r)[j] == (KeysOf(g) + [k])[j]
      {
      }
    }
  }

  /** Entries keyed by a sequence of distinct keys have distinct keys. */
  lemma DistinctEntries<K, V>(g: seq<(K, seq<V>)>, ks: seq<K>)
    requires KeysOf(g) == Distinct(ks)
    ensures forall a, b | 0 <= a < b < |g| :: g[a].0 != g[b].0
  {
    var dk := KeysOf(g);
    forall a, b | 0 <= a < b < |g|
      ensures g[a].0 != g[b].0
    {
      assert g[a].0 == dk[a] && g[b].0 == dk[b];
    }
  }

  /** The groups are keyed by the distinct keys of the pairs, in first-seen order. */
  lemma {:induction false} GroupByKeys<K, V>(pairs: seq<(K, V)>)
    ensures KeysOf(GroupBy(pairs)) == Distinct(KeysOf(pairs))
  {
    if |pairs| > 0 {
      var n := |pairs| - 1;
      var init := pairs[..n];
      var g := GroupBy(init);
      var k, v := pairs[n].0, pairs[n].1;
      assert GroupBy(pairs) == Append(g, k, v);
      GroupByKeys(init);
      KeysOfPrefix(pairs, n);
      DistinctLast(KeysOf(pairs));
      DistinctEntries(g, KeysOf(init));
      KeysOfAppend(g, k, v);
    }
  }

  /** Each group holds exactly the values paired with its key, in input order. */
  lemma {:induction false} GroupByValues<K, V>(pairs: seq<(K, V)>)
    ensures forall i | 0 <= i < |GroupBy(pairs)| ::
      GroupBy(pairs)[i].1 == ValuesFor(pairs, GroupBy(pairs)[i].0)
  {
    if |pairs| > 0 {
      var n := |pairs| - 1;
      var init := pairs[..n];
      var g := GroupBy(init);
      var k, v := pairs[n].0, pairs[n].1;
      GroupByValues(init);
      GroupByKeys(init);
      AppendEntries(g, k, v);
      var r := GroupBy(pairs);
      assert r == Append(g, k, v);
      forall i | 0 <= i < |r|
        ensures r[i].1 == ValuesFor(pairs, r[i].0)
      {
        var key := r[i].0;
        assert ValuesFor(pairs, key) == ValuesFor(init, key) + (if k == key then [v] else []);
        if i < |g| {
          assert r[i] == if g[i].0 == k then (k, g[i].1 + [v]) else g[i];
        } else {
          assert k !in KeysOf(init);
          ValuesForAbsent(init, k);
        }
      }
    }
  }

  /** The groups are keyed by the distinct keys in first-seen order, and each group holds
      exactly the values paired with its key, in input order. */
  lemma GroupBySpec<K, V>(pairs: seq<(K, V)>)
    ensures KeysOf(GroupBy(pairs)) == Distinct(KeysOf(pairs))
    ensures forall i | 0 <= i < |GroupBy(pairs)| ::
      GroupBy(pairs)[i].1 == ValuesFor(pairs, GroupBy(pairs)[i].0)
  {
    GroupByKeys(pairs);
    GroupByValues(pairs);
  }

  /** The number of values paired with `k` is the number of occurrences of `k`. */
  lemma {:induction false} ValuesForCount<K, V>(pairs: seq<(K, V)>, k: K)
    ensures |ValuesFor(pairs, k)| == multiset(KeysOf(pairs))[k]
  {
    if |pairs| > 0 {
      var n := |pairs| - 1;
      ValuesForCount(pairs[..n], k);
      KeysOfPrefix(pairs, n);
      assert KeysOf(pairs) == KeysOf(pairs[..n]) + [pairs[n].0];
    }
  }

  /** Each group's size is the number of pairs with its key. */
  lemma GroupSizes<K, V>(pairs: seq<(K, V)>)
    ensures forall i | 0 <= i < |GroupBy(pairs)| ::
      |GroupBy(pairs)[i].1| == multiset(KeysOf(pairs))[GroupBy(pairs)[i].0]
  {
    var g := GroupBy(pairs);
    GroupBySpec(pairs);
    forall i | 0 <= i < |g|
      ensures |g[i].1| == multiset(KeysOf(pairs))[g[i].0]
    {
      ValuesForCount(pairs, g[i].0);
    }
  }

  /** A histogram: distinct keys in first-seen order, each with its count. */
  type Histogram<K> = seq<(K, nat)>

  /** `counts[k] = counts.get(k, 0) + 1`. */
  function Bump<K(==)>(h: Histogram<K>, k: K): Histogram<K>
  {
    var i := IndexOf(KeysOf(h), k);
    if i < |h| then h[i := (k, h[i].1 + 1)] else h + [(k, 1)]
  }

  /** Counts the keys (Python's `Counter(keys)`, or the explicit counting loop). */
  function Tally<K(==)>(keys: seq<K>): Histogram<K>
  {
    if |keys| == 0 then []
    else Bump(Tally(keys[..|keys| - 1]), keys[|keys| - 1])
  }

  /** Pairs every key with itself, so that grouping it collects its occurrences. */
  function Tag<K>(keys: seq<K>): (pairs: seq<(K, K)>)
    ensures KeysOf(pairs) == keys
  {
    seq(|keys|, i requires 0 <= i < |keys| => (keys[i], keys[i]))
  }

  /** The group sizes of a grouping. */
  function Sizes<K, V>(g: seq<(K, seq<V>)>): (h: Histogram<K>)
    ensures KeysOf(h) == KeysOf(g)
  {
    seq(|g|, i requires 0 <= i < |g| => (g[i].0, |g[i].1|))
  }

  /** The sum of a histogram's counts. */
  function TotalCount<K>(h: Histogram<K>): nat
  {
    if |h| == 0 then 0 else h[0].1 + TotalCount(h[1..])
  }

  /** The sum of the sizes is the total size. */
  lemma {:induction false} TotalCountSizes<K, V>(g: seq<(K, seq<V>)>)
    ensures TotalCount(Sizes(g)) == TotalSize(g)
  {
    if |g| > 0 {
      assert Sizes(g)[1..] == Sizes(g[1..]);
      TotalCountSizes(g[1..]);
    }
  }

  /** Counting is grouping followed by taking the group sizes. */
  lemma {:induction false} TallyIsGroupSizes<K>(keys: seq<K>)
    ensures Tally(keys) == Sizes(GroupBy(Tag(keys)))
  {
    if |keys| > 0 {
      var n := |keys| - 1;
      assert Tag(keys)[..n] == Tag(keys[..n]);
      TallyIsGroupSizes(keys[..n]);
    }
  }

  /** A tally lists each distinct key once, in first-seen order, with its number of
      occurrences; every count is positive and the counts add up to the number of keys. */
  lemma TallySpec<K>(keys: seq<K>)
    ensures KeysOf(Tally(keys)) == Distinct(keys)
    ensures forall i | 0 <= i < |Tally(keys)| ::
      Tally(keys)[i].1 == multiset(keys)[Tally(keys)[i].0] >= 1
    ensures TotalCount(Tally(keys)) == |keys|
  {
    var pairs := Tag(keys);
    var g := GroupBy(pairs);
    var h := Tally(keys);
    TallyIsGroupSizes(keys);
    assert h == Sizes(g);
    assert KeysOf(pairs) == keys;
    GroupByKeys(pairs);
    GroupSizes(pairs);
    GroupByTotal(pairs);
    TotalCountSizes(g);
    forall i | 0 <= i < |h|
      ensures h[i].1 == multiset(keys)[h[i].0] >= 1
    {
      assert h[i] == (g[i].0, |g[i].1|);
    }
  }

  /** Entry `a` may precede entry `b` in `most_common`: its count is at least as large. */
  predicate CountAtLeast<K>(a: (K, nat), b: (K, nat))
  {
    a.1 >= b.1
  }

  /** Ranking entries by count is a total preorder. */
  lemma CountOrder<K(!new)>()
    ensures TotalPreorder(CountAtLeast<K>)
  {
  }

  /** `Counter.most_common(n)`: the entries by decreasing count, ties in first-seen order,
      at most `n` of them. */
  function MostCommon<K(==,!new)>(h: Histogram<K>, n: nat): (r: Histogram<K>)
    ensures |r| == if n < |h| then n else |h|
    ensures forall i | 0 <= i < |r| :: r[i] in h
    ensures multiset(r) <= multiset(h)
    ensures forall i, j | 0 <= i < j < |r| :: r[i].1 >= r[j].1
    ensures forall i, j | 0 <= i < |r| && 0 <= j < |h| && h[j] !in r :: h[j].1 <= r[i].1
  {
    CountOrder<K>();
    var sorted := SortBy(h, CountAtLeast);
    SortByMembers(h, CountAtLeast);
    var k := if n < |h| then n else |h|;
    PrefixDominates(h, CountAtLeast, k);
    var r := PyPrefix(sorted, n);
    assert r == sorted[..k];
    assert forall i | 0 <= i < k :: r[i] == sorted[i];
    PrefixMultiset(sorted, k);
    r
  }

  /** Entries with equal counts keep their first-seen order in the ranking. */
  lemma MostCommonStable<K(!new)>(h: Histogram<K>)
    ensures forall e :: Ties(MostCommon(h, |h|), e, CountAtLeast) == Ties(h, e, CountAtLeast)
  {
    CountOrder<K>();
    SortByStable(h, CountAtLeast);
  }

  /** `most_common(n)` is the first `n` entries of the full ranking. Among entries with
      equal counts, those kept are the earliest seen, in first-seen order. */
  lemma MostCommonPrefix<K(!new)>(h: Histogram<K>, n: nat)
    ensures MostCommon(h, n) == MostCommon(h, |h|)[..|MostCommon(h, n)|]
    ensures forall e ::
      |Ties(MostCommon(h, n), e, CountAtLeast)| <= |Ties(h, e, CountAtLeast)|
      && Ties(MostCommon(h, n), e, CountAtLeast)
         == Ties(h, e, CountAtLeast)[..|Ties(MostCommon(h, n), e, CountAtLeast)|]
  {
    var all := MostCommon(h, |h|);
    var r := MostCommon(h, n);
    assert all == SortBy(h, CountAtLeast);
    assert r == all[..|r|];
    MostCommonStable(h);
    forall e
      ensures |Ties(r, e, CountAtLeast)| <= |Ties(h, e, CountAtLeast)|
      ensures Ties(r, e, CountAtLeast) == Ties(h, e, CountAtLeast)[..|Ties(r, e, CountAtLeast)|]
    {
      FilterPrefix(all, |r|, TiesWith(e, CountAtLeast));
    }
  }
}

=== FILE: health.dfy ===
/** Health checks: `GetHealthStatusUseCase.execute` (api) and `get_health_status_usecase`
    (book-api) map the outcome of loading the CSV to a status record and never raise. */
module Health {
  import opened Wrappers
  import opened Catalogue

  /** What loading the catalogue did: the rows, a missing file, or another failure; a
      failure carries `str(e)` of the exception. */
  datatype LoadOutcome =
    | Loaded(books: seq<Book>)
    | FileNotFound(reason: string)
    | LoadFailed(reason: string)

  /** The api health response `{status, message, data: {csv_loaded, total_books}}`. */
  datatype HealthReport = HealthReport(status: string, message: string, csvLoaded: bool, totalBooks: nat)

  const HealthyMessage := "API funcionando corretamente"
  const NotFoundMessage := "Arquivo de dados não encontrado"
  const CheckErrorPrefix := "Erro ao verificar dados: "

  /** `GetHealthStatusUseCase.execute()`. */
  function GetHealthStatus(outcome: LoadOutcome): (r: HealthReport)
    ensures r.csvLoaded <==> r.status == "healthy"
    ensures r.csvLoaded <==> outcome.Loaded?
    ensures !r.csvLoaded ==> r.status == "unhealthy" && r.totalBooks == 0
    ensures outcome.Loaded? ==> r.totalBooks == |outcome.books| && r.message == HealthyMessage
    ensures outcome.FileNotFound? ==> r.message == NotFoundMessage
    ensures outcome.LoadFailed? ==>
      |r.message| >= |CheckErrorPrefix| && r.message[..|CheckErrorPrefix|] == CheckErrorPrefix
      && r.message[|CheckErrorPrefix|..] == outcome.reason
  {
    match outcome
    case Loaded(books) => HealthReport("healthy", HealthyMessage, true, |books|)
    case FileNotFound(_) => HealthReport("unhealthy", NotFoundMessage, false, 0)
    case LoadFailed(reason) => HealthReport("unhealthy", CheckErrorPrefix + reason, false, 0)
  }

  /** The book-api health response `{status, csv_available, total_books | error}`. */
  datatype BookApiHealth = BookApiHealth(
    status: string,
    csvAvailable: bool,
    totalBooks: Option<nat>,
    error: Option<string>)

  /** `get_health_status_usecase()` of the book-api: every exception becomes an error
      entry carrying its message. */
  function GetBookApiHealthStatus(outcome: LoadOutcome): (r: BookApiHealth)
    ensures r.csvAvailable <==> r.status == "ok"
    ensures r.csvAvailable <==> outcome.Loaded?
    ensures r.status == "ok" || r.status == "error"
    ensures r.totalBooks.Some? <==> r.csvAvailable
    ensures r.error.Some? <==> !r.csvAvailable
    ensures outcome.Loaded? ==> r.totalBooks == Some(|outcome.books|)
    ensures !outcome.Loaded? ==> r.error == Some(outcome.reason)
  {
    match outcome
    case Loaded(books) => BookApiHealth("ok", true, Some(|books|), None)
    case FileNotFound(reason) => BookApiHealth("error", false, None, Some(reason))
    case LoadFailed(reason) => BookApiHealth("error", false, None, Some(reason))
  }

  /** Both health checks agree on availability and on the number of books. */
  lemma HealthVariantsAgree(outcome: LoadOutcome)
    ensures GetHealthStatus(outcome).csvLoaded == GetBookApiHealthStatus(outcome).csvAvailable
    ensures GetBookApiHealthStatus(outcome).totalBooks.GetOr(0) == GetHealthStatus(outcome).totalBooks
  {
  }
}

=== FILE: scraper.dfy ===
/** The pure helpers of the scraper: the rating word of the page, the absolute image URL
    and the URL of the n-th page of a category. */
module Scraper {
  import opened Text

  /** The site root, which both URL rules prefix. */
  const ImagePrefix := "https://books.toscrape.com/"

  /** The word the site uses for each rating, `1..5`. */
  function RatingWord(n: int): (w: string)
    requires 1 <= n <= 5
  {
    if n == 1 then "One" else if n == 2 then "Two" else if n == 3 then "Three"
    else if n == 4 then "Four" else "Five"
  }

  /** `rating_to_int(rating_str)`: the star count for a recognised word, otherwise 0. */
  function RatingToInt(word: string): (r: int)
    ensures 0 <= r <= 5
    ensures r == 0 <==> word !in {"One", "Two", "Three", "Four", "Five"}
    ensures r != 0 ==> word == RatingWord(r)
  {
    if word == "One" then 1
    else if word == "Two" then 2
    else if word == "Three" then 3
    else if word == "Four" then 4
    else if word == "Five" then 5
    else 0
  }

  /** The words map back to their counts, so the mapping is one-to-one on them. */
  lemma RatingRoundTrip(n: int)
    requires 1 <= n <= 5
    ensures RatingToInt(RatingWord(n)) == n
  {
  }

  /** Two recognised words with the same count are the same word. */
  lemma RatingInjective(a: string, b: string)
    requires RatingToInt(a) == RatingToInt(b) != 0
    ensures a == b
  {
  }

  /** `IMAGE_PREFIX + src.replace("../", "")`. */
  function ImageUrl(src: string): (url: string)
    ensures StartsWith(url, ImagePrefix)
  {
    ImagePrefix + ReplaceAll(src, "../", "")
  }

  /** Leading `../` segments of a relative image path are dropped, and a path without
      `../` is kept as it is. */
  lemma ImageUrlStripsParents(k: nat, path: string)
    requires !Contains(path, "../")
    ensures ImageUrl(Repeat("../", k) + path) == ImagePrefix + path
  {
    var parents := "../";
    ReplaceAllLeadingRun(parents, "", k, path);
    ReplaceAllAbsent(path, parents, "");
    EmptyRepeat(k);
    assert ReplaceAll(Repeat(parents, k) + path, parents, "") == path;
  }

  /** Repeating the empty string gives the empty string. */
  lemma {:induction false} EmptyRepeat(k: nat)
    ensures Repeat("", k) == ""
  {
    if k > 0 {
      EmptyRepeat(k - 1);
    }
  }

  /** The URL of page `page` (from 1) of the category at `relUrl`, as the scraping loop
      builds it. */
  function PageUrl(relUrl: string, page: nat): (url: string)
    requires page >= 1
    ensures StartsWith(url, ImagePrefix)
    ensures page == 1 ==> url == ImagePrefix + relUrl
  {
    if page == 1 then ImagePrefix + relUrl
    else ImagePrefix + ReplaceAll(relUrl, "index.html", "page-" + NatToString(page) + ".html")
  }

  /** For a category URL ending in its only `index.html`, page n > 1 swaps that file name
      for `page-n.html`. */
  lemma PageUrlOfIndex(dir: string, page: nat)
    requires page > 1
    requires forall i | 0 <= i < |dir| :: !StartsWith((dir + "index.html")[i..], "index.html")
    ensures PageUrl(dir + "index.html", page) == ImagePrefix + (dir + ("page-" + NatToString(page) + ".html"))
  {
    ReplaceAllTrailing(dir, "index.html", "page-" + NatToString(page) + ".html");
  }

  /** Without `index.html` in the category URL every page has the page-1 URL, so the
      scraping loop only ends when the site stops answering with articles. */
  lemma PageUrlWithoutIndex(relUrl: string, page: nat)
    requires page >= 1 && !Contains(relUrl, "index.html")
    ensures PageUrl(relUrl, page) == PageUrl(relUrl, 1)
  {
    if page > 1 {
      ReplaceAllAbsent(relUrl, "index.html", "page-" + NatToString(page) + ".html");
    }
  }
}

=== FILE: seqs.dfy ===
/** Sequence helpers: filtering, subsequences, first occurrences, sums and extrema. */
module Seqs {
  import opened Wrappers

  /** The elements of `s` that satisfy `p`, in order (a Python list comprehension with an `if`). */
  function Filter<T>(s: seq<T>, p: T -> bool): (r: seq<T>)
    ensures |r| <= |s|
    ensures forall i | 0 <= i < |r| :: p(r[i]) && r[i] in s
  {
    if |s| == 0 then []
    else if p(s[0]) then [s[0]] + Filter(s[1..], p)
    else Filter(s[1..], p)
  }

  /** An optional value that is present. */
  predicate Present<T>(o: Option<T>)
  {
    o.Some?
  }

  /** The present values of a sequence of optional values, in order (pandas' `dropna()`):
      position by position, the unwrapped values of the present entries. */
  function Somes<T>(s: seq<Option<T>>): (r: seq<T>)
    ensures |r| == |Filter(s, Present)|
    ensures forall i | 0 <= i < |r| :: Some(r[i]) == Filter(s, Present)[i]
    ensures forall i | 0 <= i < |r| :: Some(r[i]) in s
    ensures forall i | 0 <= i < |s| && s[i].Some? :: s[i].value in r
  {
    if |s| == 0 then []
    else
      var rest := Somes(s[1..]);
      assert forall i | 1 <= i < |s| :: s[i] == s[1..][i - 1];
      if s[0].Some? then [s[0].value] + rest else rest
  }

  /** Every element of `s` that satisfies `p` is kept. */
  lemma {:induction false} FilterKeepsAll<T>(s: seq<T>, p: T -> bool)
    ensures forall i | 0 <= i < |s| && p(s[i]) :: s[i] in Filter(s, p)
  {
    if |s| > 0 {
      FilterKeepsAll(s[1..], p);
      forall i | 0 <= i < |s| && p(s[i])
        ensures s[i] in Filter(s, p)
      {
        if i > 0 {
          assert s[i] == s[1..][i - 1];
        }
      }
    }
  }

  /** Filtering distributes over concatenation. */
  lemma {:induction false} FilterConcat<T>(a: seq<T>, b: seq<T>, p: T -> bool)
    ensures Filter(a + b, p) == Filter(a, p) + Filter(b, p)
  {
    if |a| == 0 {
      assert a + b == b;
    } else {
      assert (a + b)[1..] == a[1..] + b;
      FilterConcat(a[1..], b, p);
    }
  }

  /** Filtering a single element keeps it exactly when it passes. */
  lemma FilterSingleton<T>(x: T, p: T -> bool)
    ensures Filter([x], p) == if p(x) then [x] else []
  {
    assert [x][1..] == [];
  }

  /** Filtering a permutation keeps as many elements. */
  lemma {:induction false} FilterPermutation<T>(s: seq<T>, t: seq<T>, p: T -> bool)
    requires multiset(s) == multiset(t)
    ensures |Filter(s, p)| == |Filter(t, p)|
    decreases |s|
  {
    if |s| > 0 {
      var x := s[0];
      assert x in multiset(t);
      var i := FirstIndex(t, x);
      var rest := t[..i] + t[i + 1..];
      assert t == t[..i] + [x] + t[i + 1..];
      assert s == [x] + s[1..];
      assert multiset(t) == multiset(t[..i]) + multiset{x} + multiset(t[i + 1..]);
      assert multiset(s) == multiset{x} + multiset(s[1..]);
      assert multiset(rest) == multiset(t[..i]) + multiset(t[i + 1..]);
      assert multiset(s[1..]) == multiset(s) - multiset{x};
      assert multiset(rest) == multiset(t) - multiset{x};
      FilterPermutation(s[1..], rest, p);
      FilterConcat(t[..i], t[i + 1..], p);
      FilterConcat(t[..i] + [x], t[i + 1..], p);
      FilterConcat(t[..i], [x], p);
      FilterConcat([x], s[1..], p);
    } else {
      assert |t| == 0;
    }
  }

  /** Filtering twice keeps exactly what satisfies both predicates. */
  lemma {:induction false} FilterFilter<T>(s: seq<T>, p: T -> bool, q: T -> bool, pq: T -> bool)
    requires forall x :: pq(x) == (p(x) && q(x))
    ensures Filter(Filter(s, p), q) == Filter(s, pq)
  {
    if |s| > 0 {
      FilterFilter(s[1..], p, q, pq);
    }
  }

  /** Filtering with a predicate that every element satisfies is the identity. */
  lemma {:induction false} FilterAll<T>(s: seq<T>, p: T -> bool)
    requires forall i | 0 <= i < |s| :: p(s[i])
    ensures Filter(s, p) == s
  {
    if |s| > 0 {
      FilterAll(s[1..], p);
    }
  }

  /** Filtering with a predicate that no element satisfies yields nothing. */
  lemma {:induction false} FilterNone<T>(s: seq<T>, p: T -> bool)
    requires forall i | 0 <= i < |s| :: !p(s[i])
    ensures Filter(s, p) == []
  {
    if |s| > 0 {
      FilterNone(s[1..], p);
    }
  }

  /** Filtering with two predicates that agree on every element gives the same result. */
  lemma {:induction false} FilterCongruent<T>(s: seq<T>, p: T -> bool, q: T -> bool)
    requires forall i | 0 <= i < |s| :: p(s[i]) == q(s[i])
    ensures Filter(s, p) == Filter(s, q)
  {
    if |s| > 0 {
      FilterCongruent(s[1..], p, q);
    }
  }

  /** A filter keeps every copy of each element that satisfies the predicate, and no copy
      of any other. */
  lemma {:induction false} FilterMultiset<T>(s: seq<T>, p: T -> bool)
    ensures forall x :: multiset(Filter(s, p))[x] == if p(x) then multiset(s)[x] else 0
  {
    if |s| > 0 {
      FilterMultiset(s[1..], p);
      assert s == [s[0]] + s[1..];
    }
  }

  /** Filtering a prefix gives a prefix of the filtered sequence. */
  lemma FilterPrefix<T>(s: seq<T>, k: nat, p: T -> bool)
    requires k <= |s|
    ensures |Filter(s[..k], p)| <= |Filter(s, p)|
    ensures Filter(s[..k], p) == Filter(s, p)[..|Filter(s[..k], p)|]
  {
    assert s == s[..k] + s[k..];
    FilterConcat(s[..k], s[k..], p);
  }

  /** `a` can be obtained from `b` by deleting elements, keeping the order of the rest. */
  predicate IsSubsequence<T(==)>(a: seq<T>, b: seq<T>)
    decreases |b|
  {
    |a| == 0
    || (|b| > 0
        && ((a[0] == b[0] && IsSubsequence(a[1..], b[1..])) || IsSubsequence(a, b[1..])))
  }

  /** A filter result is an order-preserving subsequence of its input. */
  lemma {:induction false} FilterIsSubsequence<T>(s: seq<T>, p: T -> bool)
    ensures IsSubsequence(Filter(s, p), s)
  {
    if |s| > 0 {
      FilterIsSubsequence(s[1..], p);
    }
  }

  /** Subsequences compose. */
  lemma {:induction false} SubsequenceTransitive<T>(a: seq<T>, b: seq<T>, c: seq<T>)
    requires IsSubsequence(a, b) && IsSubsequence(b, c)
    ensures IsSubsequence(a, c)
    decreases |c|
  {
    if |a| > 0 {
      assert |b| > 0 && |c| > 0;
      if b[0] == c[0] && IsSubsequence(b[1..], c[1..]) {
        if a[0] == b[0] && IsSubsequence(a[1..], b[1..]) {
          SubsequenceTransitive(a[1..], b[1..], c[1..]);
        } else {
          SubsequenceTransitive(a, b[1..], c[1..]);
        }
      } else {
        SubsequenceTransitive(a, b, c[1..]);
      }
    }
  }

  /** The prefix `s[:limit]` with Python's slicing rules: a negative limit counts from the end. */
  function PyPrefix<T>(s: seq<T>, limit: int): (r: seq<T>)
    ensures limit >= 0 ==> |r| == if limit < |s| then limit else |s|
    ensures limit < 0 ==> |r| == if |s| + limit > 0 then |s| + limit else 0
    ensures r == s[..|r|]
  {
    if limit >= 0 then (if limit < |s| then s[..limit] else s)
    else (if |s| + limit > 0 then s[..|s| + limit] else [])
  }

  /** A prefix holds no element more often than the whole sequence. */
  lemma PrefixMultiset<T>(s: seq<T>, k: nat)
    requires k <= |s|
    ensures multiset(s[..k]) <= multiset(s)
  {
    assert s == s[..k] + s[k..];
  }

  /** The index of the first occurrence of `x` in `s`. */
  function FirstIndex<T(==)>(s: seq<T>, x: T): (i: nat)
    requires x in s
    ensures i < |s| && s[i] == x && x !in s[..i]
  {
    if s[0] == x then 0
    else
      assert x in s[1..];
      var j := FirstIndex(s[1..], x);
      assert s[..j + 1] == [s[0]] + s[1..][..j];
      j + 1
  }

  /** The distinct elements of `s` in order of first occurrence, built the way Python does
      it: walk the list and append each element not seen before. */
  function Distinct<T(==)>(s: seq<T>): (r: seq<T>)
    ensures |r| <= |s|
    ensures forall i, j | 0 <= i < j < |r| :: r[i] != r[j]
    ensures forall i | 0 <= i < |r| :: r[i] in s
    ensures forall i | 0 <= i < |s| :: s[i] in r
  {
    if |s| == 0 then []
    else
      var d := Distinct(s[..|s| - 1]);
      assert s == s[..|s| - 1] + [s[|s| - 1]];
      if s[|s| - 1] in d then d else d + [s[|s| - 1]]
  }


  /** The distinct elements of a non-empty sequence, from those of all but its last
      element. */
  lemma DistinctLast<T>(s: seq<T>)
    requires |s| > 0
    ensures var d := Distinct(s[..|s| - 1]);
      Distinct(s) == if s[|s| - 1] in d then d else d + [s[|s| - 1]]
  {
  }

  /** A permutation of a duplicate-free sequence is duplicate-free. */
  lemma DistinctPermutation<T>(a: seq<T>, b: seq<T>, i: nat, j: nat)
    requires multiset(a) == multiset(b)
    requires forall x, y | 0 <= x < y < |a| :: a[x] != a[y]
    requires i < j < |b|
    ensures b[i] != b[j]
  {
    if b[i] == b[j] {
      assert multiset(b)[b[i]] >= 2 by {
        assert b == b[..i] + [b[i]] + b[i + 1..j] + [b[j]] + b[j + 1..];
      }
      NoDuplicatesCount(a, b[i]);
    }
  }

  /** In a duplicate-free sequence every element occurs at most once. */
  lemma {:induction false} NoDuplicatesCount<T>(a: seq<T>, x: T)
    requires forall p, q | 0 <= p < q < |a| :: a[p] != a[q]
    ensures multiset(a)[x] <= 1
  {
    if |a| > 0 {
      assert a == [a[0]] + a[1..];
      NoDuplicatesCount(a[1..], x);
      if a[0] == x {
        assert x !in a[1..] by {
          assert forall q | 0 <= q < |a[1..]| :: a[1..][q] == a[q + 1];
        }
      }
    }
  }

  /** A first occurrence found in a prefix stays the first occurrence in the whole sequence. */
  lemma {:induction false} FirstIndexPrefix<T>(s: seq<T>, n: nat, x: T)
    requires n <= |s| && x in s[..n]
    ensures FirstIndex(s, x) == FirstIndex(s[..n], x)
  {
    var i := FirstIndex(s, x);
    var k := FirstIndex(s[..n], x);
    assert s[..n][k] == s[k];
    assert forall j | 0 <= j < i :: s[..i][j] == s[j];
    assert forall j | 0 <= j < k :: s[..n][..k][j] == s[j];
  }

  /** `Distinct` lists elements in the order of their first occurrence in the input. */
  lemma {:induction false} DistinctFirstSeenOrder<T>(s: seq<T>)
    ensures forall i, j | 0 <= i < j < |Distinct(s)| ::
      FirstIndex(s, Distinct(s)[i]) < FirstIndex(s, Distinct(s)[j])
  {
    if |s| > 0 {
      var n := |s| - 1;
      var init := s[..n];
      DistinctFirstSeenOrder(init);
      var d := Distinct(init);
      DistinctLast(s);
      var r := Distinct(s);
      forall i, j | 0 <= i < j < |r|
        ensures FirstIndex(s, r[i]) < FirstIndex(s, r[j])
      {
        assert r[i] == d[i];
        FirstIndexPrefix(s, n, d[i]);
        if j < |d| {
          assert r[j] == d[j];
          FirstIndexPrefix(s, n, d[j]);
        } else {
          FirstIndexOfNew(s);
        }
      }
    }
  }

  /** An element that does not occur before the last position first occurs there. */
  lemma FirstIndexOfNew<T>(s: seq<T>)
    requires |s| > 0 && s[|s| - 1] !in Distinct(s[..|s| - 1])
    ensures FirstIndex(s, s[|s| - 1]) == |s| - 1
  {
    var n := |s| - 1;
    forall j | 0 <= j < n
      ensures s[j] != s[n]
    {
      assert s[..n][j] == s[j];
      assert s[..n][j] in Distinct(s[..n]);
    }
    var i := FirstIndex(s, s[n]);
    assert i <= n && s[i] == s[n];
  }

  /** The sum of a sequence of reals (Python's `sum`). */
  function Sum(s: seq<real>): real
  {
    if |s| == 0 then 0.0 else s[0] + Sum(s[1..])
  }

  /** Summation distributes over concatenation. */
  lemma {:induction false} SumConcat(a: seq<real>, b: seq<real>)
    ensures Sum(a + b) == Sum(a) + Sum(b)
  {
    if |a| == 0 {
      assert a + b == b;
    } else {
      assert (a + b)[1..] == a[1..] + b;
      SumConcat(a[1..], b);
    }
  }

  /** The smallest element (Python's `min`). */
  function Min(s: seq<real>): (m: real)
    requires |s| > 0
    ensures m in s
    ensures forall i | 0 <= i < |s| :: m <= s[i]
  {
    if |s| == 1 then s[0]
    else
      var rest := Min(s[1..]);
      assert forall i | 1 <= i < |s| :: s[i] == s[1..][i - 1];
      if s[0] <= rest then s[0] else rest
  }

  /** The largest element (Python's `max`). */
  function Max(s: seq<real>): (m: real)
    requires |s| > 0
    ensures m in s
    ensures forall i | 0 <= i < |s| :: s[i] <= m
  {
    if |s| == 1 then s[0]
    else
      var rest := Max(s[1..]);
      assert forall i | 1 <= i < |s| :: s[i] == s[1..][i - 1];
      if s[0] >= rest then s[0] else rest
  }

  /** A sum of values within [lo, hi] lies within [n*lo, n*hi]. */
  lemma {:induction false} SumBounds(s: seq<real>, lo: real, hi: real)
    requires forall i | 0 <= i < |s| :: lo <= s[i] <= hi
    ensures |s| as real * lo <= Sum(s) <= |s| as real * hi
  {
    if |s| > 0 {
      assert forall i | 0 <= i < |s| - 1 :: s[1..][i] == s[i + 1];
      SumBounds(s[1..], lo, hi);
    }
  }

  /** The arithmetic mean `sum(s) / len(s)`. */
  function Mean(s: seq<real>): real
    requires |s| > 0
  {
    Sum(s) / |s| as real
  }

  /** `n` values of `mean` each add up to `total`. */
  predicate SharesOut(mean: real, n: nat, total: real)
  {
    mean * n as real == total
  }

  /** The mean, counted once per value, gives back the total. */
  lemma MeanTimesCount(s: seq<real>, n: nat, mean: real)
    requires |s| == n > 0 && mean == Mean(s)
    ensures SharesOut(mean, n, Sum(s))
  {
  }

  /** The mean of a non-empty sequence lies between its minimum and its maximum. */
  lemma MeanBetween(s: seq<real>)
    requires |s| > 0
    ensures Min(s) <= Mean(s) <= Max(s)
  {
    MeanBounds(s, Min(s), Max(s));
  }

  /** The mean of values within [lo, hi] lies within [lo, hi]. */
  lemma MeanBounds(s: seq<real>, lo: real, hi: real)
    requires |s| > 0
    requires forall i | 0 <= i < |s| :: lo <= s[i] <= hi
    ensures lo <= Mean(s) <= hi
  {
    SumBounds(s, lo, hi);
    DivideBounds(Sum(s), |s| as real, lo, hi);
  }

  /** Dividing `n*lo <= x <= n*hi` by a positive `n`. */
  lemma DivideBounds(x: real, n: real, lo: real, hi: real)
    requires n > 0.0 && n * lo <= x <= n * hi
    ensures lo <= x / n <= hi
  {
    assert x == n * (x / n);
  }
}

=== FILE: sorting.dfy ===
/** A stable sort, the model of Python's `sorted(xs, key=..., reverse=...)`.
    The order is given as a total preorder `le` ("may come before"); a descending sort on a
    key is the ascending sort on the flipped comparison, and stability means elements that
    compare equal keep their input order (which Python also guarantees with `reverse=True`). */
module Sorting {
  import opened Seqs

  /** `le` is total and transitive: elements are ranked, possibly with ties. */
  ghost predicate TotalPreorder<T(!new)>(le: (T, T) -> bool) {
    && (forall x, y :: le(x, y) || le(y, x))
    && (forall x, y, z :: le(x, y) && le(y, z) ==> le(x, z))
  }

  /** Every element may come before every later one. */
  ghost predicate Sorted<T>(s: seq<T>, le: (T, T) -> bool) {
    forall i, j | 0 <= i < j < |s| :: le(s[i], s[j])
  }

  /** The predicate "ties with `x`": ranked equal to `x` under `le`. */
  function TiesWith<T>(x: T, le: (T, T) -> bool): T -> bool {
    y => le(x, y) && le(y, x)
  }

  /** The elements of `s` that tie with `x`, in their order in `s`. */
  function Ties<T>(s: seq<T>, x: T, le: (T, T) -> bool): seq<T> {
    Filter(s, TiesWith(x, le))
  }

  /** `r` keeps every group of tied elements of `s` in its original relative order. */
  ghost predicate StableWrt<T(!new)>(r: seq<T>, s: seq<T>, le: (T, T) -> bool) {
    forall x :: Ties(r, x, le) == Ties(s, x, le)
  }

  /** Inserts `x` into the sorted `t` before the first element it may precede. */
  function Insert<T(!new)>(x: T, t: seq<T>, le: (T, T) -> bool): (r: seq<T>)
    requires TotalPreorder(le) && Sorted(t, le)
    ensures Sorted(r, le)
    ensures multiset(r) == multiset(t) + multiset{x}
    ensures forall k | 0 <= k < |r| :: r[k] == x || r[k] in t
  {
    if |t| == 0 then [x]
    else if le(x, t[0]) then [x] + t
    else
      assert t == [t[0]] + t[1..];
      var rest := Insert(x, t[1..], le);
      ConsSorted(t[0], x, t[1..], rest, le);
      [t[0]] + rest
  }

  /** Putting back in front the head `z` of a sorted sequence keeps a sequence sorted when
      it only gained an element `x` that `z` may precede. */
  lemma ConsSorted<T>(z: T, x: T, u: seq<T>, rest: seq<T>, le: (T, T) -> bool)
    requires Sorted([z] + u, le) && le(z, x) && Sorted(rest, le)
    requires forall k | 0 <= k < |rest| :: rest[k] == x || rest[k] in u
    ensures Sorted([z] + rest, le)
    ensures forall k | 0 <= k < |rest| + 1 :: ([z] + rest)[k] == x || ([z] + rest)[k] in [z] + u
  {
    var r := [z] + rest;
    forall k | 0 <= k < |rest|
      ensures le(z, rest[k])
    {
      if rest[k] != x {
        var m :| 0 <= m < |u| && u[m] == rest[k];
        assert ([z] + u)[0] == z && ([z] + u)[m + 1] == rest[k];
      }
    }
    forall a, b | 0 <= a < b < |r|
      ensures le(r[a], r[b])
    {
      if a > 0 {
        assert r[a] == rest[a - 1] && r[b] == rest[b - 1];
      } else {
        assert r[b] == rest[b - 1];
      }
    }
    forall k | 0 <= k < |r|
      ensures r[k] == x || r[k] in [z] + u
    {
      if k > 0 && r[k] != x {
        assert r[k] == rest[k - 1];
        var m :| 0 <= m < |u| && u[m] == rest[k - 1];
        assert ([z] + u)[m + 1] == r[k];
      }
    }
  }

  /** Stable insertion sort. */
  function SortBy<T(!new)>(s: seq<T>, le: (T, T) -> bool): (r: seq<T>)
    requires TotalPreorder(le)
    ensures Sorted(r, le)
    ensures multiset(r) == multiset(s)
    ensures |r| == |s|
  {
    if |s| == 0 then []
    else
      assert s == [s[0]] + s[1..];
      Insert(s[0], SortBy(s[1..], le), le)
  }

  /** Every element of the sorted sequence comes from the input. */
  lemma SortByMembers<T(!new)>(s: seq<T>, le: (T, T) -> bool)
    requires TotalPreorder(le)
    ensures forall i | 0 <= i < |s| :: SortBy(s, le)[i] in s
  {
    var sorted := SortBy(s, le);
    forall i | 0 <= i < |s|
      ensures sorted[i] in s
    {
      assert sorted[i] in multiset(sorted);
    }
  }

  /** Two elements where the first may not precede the second cannot both tie with `y`. */
  lemma NotBothTie<T(!new)>(x: T, z: T, le: (T, T) -> bool, y: T)
    requires TotalPreorder(le) && !le(x, z)
    ensures !TiesWith(y, le)(x) || !TiesWith(y, le)(z)
  {
  }

  /** Sorting a duplicate-free sequence gives a duplicate-free sequence of the same
      elements. */
  lemma SortByDistinct<T(!new)>(s: seq<T>, le: (T, T) -> bool)
    requires TotalPreorder(le)
    requires forall x, y | 0 <= x < y < |s| :: s[x] != s[y]
    ensures forall i | 0 <= i < |s| :: SortBy(s, le)[i] in s
    ensures forall i | 0 <= i < |s| :: s[i] in SortBy(s, le)
    ensures forall i, j | 0 <= i < j < |s| :: SortBy(s, le)[i] != SortBy(s, le)[j]
  {
    var sorted := SortBy(s, le);
    SortByMembers(s, le);
    forall i | 0 <= i < |s|
      ensures s[i] in sorted
    {
      assert s[i] in multiset(sorted);
    }
    forall i, j | 0 <= i < j < |s|
      ensures sorted[i] != sorted[j]
    {
      DistinctPermutation(s, sorted, i, j);
    }
  }

  /** When at most one of `x` and `z` passes `p`, the filter is the same whichever of them
      comes first. */
  lemma FilterPastFront<T>(x: T, z: T, rest: seq<T>, u: seq<T>, p: T -> bool)
    requires Filter(rest, p) == Filter([x], p) + Filter(u, p)
    requires !p(x) || !p(z)
    ensures Filter([z] + rest, p) == Filter([x], p) + (Filter([z], p) + Filter(u, p))
  {
    FilterSingleton(x, p);
    FilterSingleton(z, p);
    FilterConcat([z], rest, p);
    SwapEmpty(Filter([z], p), Filter([x], p), Filter(u, p));
  }

  /** Two sequences one of which is empty commute in front of a third. */
  lemma SwapEmpty<T>(a: seq<T>, b: seq<T>, c: seq<T>)
    requires a == [] || b == []
    ensures a + (b + c) == b + (a + c)
  {
    if a == [] {
      assert a + (b + c) == b + c == b + (a + c);
    } else {
      assert a + (b + c) == a + c == b + (a + c);
    }
  }

  /** Inserting `x` adds it in front of the elements it ties with. */
  lemma {:induction false} InsertTies<T(!new)>(x: T, t: seq<T>, le: (T, T) -> bool, y: T)
    requires TotalPreorder(le) && Sorted(t, le)
    ensures Ties(Insert(x, t, le), y, le) == Ties([x], y, le) + Ties(t, y, le)
  {
    if |t| == 0 {
    } else if le(x, t[0]) {
      FilterConcat([x], t, TiesWith(y, le));
    } else {
      var p := TiesWith(y, le);
      var rest := Insert(x, t[1..], le);
      assert Insert(x, t, le) == [t[0]] + rest;
      InsertTies(x, t[1..], le, y);
      NotBothTie(x, t[0], le, y);
      TiesCons(t, y, le);
      FilterPastFront(x, t[0], rest, t[1..], p);
    }
  }

  /** The sort is stable: tied elements keep their input order. */
  lemma {:induction false} SortByStable<T(!new)>(s: seq<T>, le: (T, T) -> bool)
    requires TotalPreorder(le)
    ensures StableWrt(SortBy(s, le), s, le)
  {
    if |s| > 0 {
      SortByStable(s[1..], le);
      forall y
        ensures Ties(SortBy(s, le), y, le) == Ties(s, y, le)
      {
        StableStep(s, le, y);
      }
    }
  }

  /** Sorting keeps the ties with `y` of a non-empty sequence in input order once it keeps
      those of its tail. */
  lemma StableStep<T(!new)>(s: seq<T>, le: (T, T) -> bool, y: T)
    requires TotalPreorder(le) && |s| > 0
    requires Ties(SortBy(s[1..], le), y, le) == Ties(s[1..], y, le)
    ensures Ties(SortBy(s, le), y, le) == Ties(s, y, le)
  {
    var tail := SortBy(s[1..], le);
    assert SortBy(s, le) == Insert(s[0], tail, le);
    InsertTies(s[0], tail, le, y);
    TiesCons(s, y, le);
  }

  /** The ties of a non-empty sequence are those of its head followed by those of its
      tail. */
  lemma TiesCons<T>(s: seq<T>, y: T, le: (T, T) -> bool)
    requires |s| > 0
    ensures Ties(s, y, le) == Ties([s[0]], y, le) + Ties(s[1..], y, le)
  {
    assert s == [s[0]] + s[1..];
    FilterConcat([s[0]], s[1..], TiesWith(y, le));
  }

  /** Whatever a prefix of the sorted sequence leaves out may be preceded by everything the
      prefix keeps. */
  lemma PrefixDominates<T(!new)>(s: seq<T>, le: (T, T) -> bool, k: nat)
    requires TotalPreorder(le) && k <= |s|
    ensures forall i, j | 0 <= i < k && 0 <= j < |s| && s[j] !in SortBy(s, le)[..k] ::
      le(SortBy(s, le)[i], s[j])
  {
    var sorted := SortBy(s, le);
    forall i, j | 0 <= i < k && 0 <= j < |s| && s[j] !in sorted[..k]
      ensures le(sorted[i], s[j])
    {
      assert s[j] in multiset(sorted);
      var m :| 0 <= m < |sorted| && sorted[m] == s[j];
      assert forall q | 0 <= q < k :: sorted[..k][q] == sorted[q];
    }
  }
}

=== FILE: text.dfy ===
/** String operations with Python's semantics: `str.lower()` (ASCII letters only),
    substring `in`, `str.replace`, `<=` on strings and decimal formatting of integers. */
module Text {

  /** Lower-cases one ASCII letter; every other character is unchanged. */
  function LowerChar(c: char): char
  {
    if 'A' <= c <= 'Z' then (c as int + 32) as char else c
  }

  /** `s.lower()`, restricted to ASCII. */
  function Lower(s: string): (r: string)
    ensures |r| == |s|
    ensures forall i | 0 <= i < |s| :: r[i] == LowerChar(s[i])
  {
    seq(|s|, i requires 0 <= i < |s| => LowerChar(s[i]))
  }

  /** Lower-casing twice is lower-casing once. */
  lemma LowerIdempotent(s: string)
    ensures Lower(Lower(s)) == Lower(s)
  {
  }

  /** `s.startswith(p)`. */
  predicate StartsWith(s: string, p: string)
  {
    |p| <= |s| && s[..|p|] == p
  }

  /** `sub in s`: `sub` occurs in `s` as a contiguous block (the empty string always does). */
  predicate Contains(s: string, sub: string)
  {
    StartsWith(s, sub) || (|s| > 0 && Contains(s[1..], sub))
  }

  /** Python's `a <= b` on strings: lexicographic order on code points. */
  predicate StrLe(a: string, b: string)
  {
    if |a| == 0 then true
    else if |b| == 0 then false
    else if a[0] != b[0] then a[0] < b[0]
    else StrLe(a[1..], b[1..])
  }

  /** Any two strings are comparable. */
  lemma {:induction false} StrLeTotal(a: string, b: string)
    ensures StrLe(a, b) || StrLe(b, a)
  {
    if |a| > 0 && |b| > 0 && a[0] == b[0] {
      StrLeTotal(a[1..], b[1..]);
    }
  }

  /** The string order is transitive. */
  lemma {:induction false} StrLeTransitive(a: string, b: string, c: string)
    requires StrLe(a, b) && StrLe(b, c)
    ensures StrLe(a, c)
  {
    if |a| > 0 && |b| > 0 && |c| > 0 && a[0] == b[0] && b[0] == c[0] {
      StrLeTransitive(a[1..], b[1..], c[1..]);
    }
  }

  /** The string order is antisymmetric: mutual `<=` means equal strings. */
  lemma {:induction false} StrLeAntisymmetric(a: string, b: string)
    requires StrLe(a, b) && StrLe(b, a)
    ensures a == b
  {
    if |a| > 0 && |b| > 0 {
      StrLeAntisymmetric(a[1..], b[1..]);
      assert a == [a[0]] + a[1..];
      assert b == [b[0]] + b[1..];
    }
  }

  /** `s.replace(pat, rep)`: every occurrence of `pat`, scanning left to right without
      overlaps, is replaced by `rep`. */
  function ReplaceAll(s: string, pat: string, rep: string): string
    requires |pat| > 0
    decreases |s|
  {
    if |s| == 0 then ""
    else if StartsWith(s, pat) then rep + ReplaceAll(s[|pat|..], pat, rep)
    else [s[0]] + ReplaceAll(s[1..], pat, rep)
  }

  /** Without an occurrence of `pat`, replacing changes nothing. */
  lemma {:induction false} ReplaceAllAbsent(s: string, pat: string, rep: string)
    requires |pat| > 0 && !Contains(s, pat)
    ensures ReplaceAll(s, pat, rep) == s
    decreases |s|
  {
    if |s| > 0 {
      ReplaceAllAbsent(s[1..], pat, rep);
      assert s == [s[0]] + s[1..];
    }
  }

  /** `pat` repeated `k` times. */
  function Repeat(pat: string, k: nat): (r: string)
    ensures |r| == k * |pat|
  {
    if k == 0 then "" else pat + Repeat(pat, k - 1)
  }

  /** A leading occurrence of `pat` is replaced, and the rest is rewritten after it. */
  lemma ReplaceAllFront(pat: string, rep: string, u: string)
    requires |pat| > 0
    ensures ReplaceAll(pat + u, pat, rep) == rep + ReplaceAll(u, pat, rep)
  {
    var s := pat + u;
    assert s[..|pat|] == pat;
    assert s[|pat|..] == u;
  }

  /** A run of leading occurrences of `pat` is replaced one by one. */
  lemma {:induction false} ReplaceAllLeadingRun(pat: string, rep: string, k: nat, rest: string)
    requires |pat| > 0
    ensures ReplaceAll(Repeat(pat, k) + rest, pat, rep) == Repeat(rep, k) + ReplaceAll(rest, pat, rep)
  {
    if k > 0 {
      var a, b := Repeat(pat, k - 1), Repeat(rep, k - 1);
      var t := ReplaceAll(rest, pat, rep);
      assert (pat + a) + rest == pat + (a + rest);
      ReplaceAllFront(pat, rep, a + rest);
      ReplaceAllLeadingRun(pat, rep, k - 1, rest);
      assert rep + (b + t) == (rep + b) + t;
    } else {
      assert Repeat(pat, k) + rest == rest;
      assert Repeat(rep, k) + ReplaceAll(rest, pat, rep) == ReplaceAll(rest, pat, rep);
    }
  }

  /** When the only occurrence of `pat` in `a + pat` is the final one, only it is replaced. */
  lemma {:induction false} ReplaceAllTrailing(a: string, pat: string, rep: string)
    requires |pat| > 0
    requires forall i | 0 <= i < |a| :: !StartsWith((a + pat)[i..], pat)
    ensures ReplaceAll(a + pat, pat, rep) == a + rep
  {
    var s := a + pat;
    if |a| == 0 {
      assert s == pat;
      assert s[|pat|..] == "";
    } else {
      assert s[0..] == s;
      assert s[1..] == a[1..] + pat;
      forall i | 0 <= i < |a[1..]|
        ensures !StartsWith((a[1..] + pat)[i..], pat)
      {
        assert (a[1..] + pat)[i..] == s[i + 1..];
      }
      ReplaceAllTrailing(a[1..], pat, rep);
      assert a == [a[0]] + a[1..];
    }
  }

  /** The character for a decimal digit. */
  function DigitChar(d: nat): (c: char)
    requires d < 10
    ensures '0' <= c <= '9' && c as int - '0' as int == d
  {
    (d + '0' as int) as char
  }

  /** The decimal digits of `n`, as Python's `str(n)` / f-string prints a non-negative int. */
  function NatToString(n: nat): (r: string)
    ensures |r| >= 1
    ensures forall i | 0 <= i < |r| :: '0' <= r[i] <= '9'
  {
    if n < 10 then [DigitChar(n)] else NatToString(n / 10) + [DigitChar(n % 10)]
  }

  /** Reads a string of decimal digits back as a number (`int(s)`). */
  function ParseNat(s: string): nat
    requires forall i | 0 <= i < |s| :: '0' <= s[i] <= '9'
  {
    if |s| == 0 then 0
    else ParseNat(s[..|s| - 1]) * 10 + (s[|s| - 1] as int - '0' as int)
  }

  /** Printing a number and reading it back gives the number. */
  lemma {:induction false} NatToStringRoundTrip(n: nat)
    ensures ParseNat(NatToString(n)) == n
  {
    if n >= 10 {
      NatToStringRoundTrip(n / 10);
      var r := NatToString(n);
      assert r[..|r| - 1] == NatToString(n / 10);
    }
  }
}

=== FILE: wrappers.dfy ===
/** Failure-compatible wrappers shared by every module of the model. */
module Wrappers {

  /** An optional value: Python's `None` or a present value (also a missing dict key). */
  datatype Option<+T> = None | Some(value: T) {

    /** The wrapped value, or `default` when absent (Python's `d.get(k, default)`). */
    function GetOr(default: T): T {
      match this
      case Some(v) => v
      case None => default
    }
  }

  /** Either a value or an error, standing for a call that may raise. */
  datatype Result<+T, +E> = Success(value: T) | Failure(error: E)

  /** An HTTP error as FastAPI's HTTPException carries it. */
  datatype HttpError = HttpError(statusCode: int, detail: string)
}
